=== FILE: README.md ===
# Chat server and client: dispatch and helpers in Dafny

This project models a small multi-client chat service made of two Python
programs, `server.py` and `client.py`, and proves properties of that model.

**Server.** Each connection's handler reads newline-terminated JSON requests
and answers them against four module-level tables:

- the stored accounts (`users`);
- the logged-in names (`authenticated_users`);
- the colors (`client_colors`);
- the channel memberships (`channels`).

A fifth table is the set of live connections (`all_clients`). The requests
are `register`, `login`, `message` (broadcast to every other live
connection) and `command` (`/list`, `/join <name>`, `/leave`). When the peer
goes away, the handler forgets the connection's name and color.

**Client.** The client's pure decisions are modelled as separate functions:

- splitting the receive buffer into lines;
- checking a chosen username;
- picking a color from the six-entry palette;
- classifying a typed line as message, command or exit;
- routing a decoded server reply by its `action` and `status`;
- the three-attempt login loop.

Modules:

- `Base`: `Option`.
- `Text`: Python's `str.strip()` over the full `str.isspace()` set, `lower()`,
  `startswith()`, and the `[a-zA-Z0-9]` class.
- `Framing`: the `while '\n' in buffer: line, buffer = buffer.split('\n', 1)`
  loop. Both programs use it.
- `Protocol`: connection ids, decoded requests, the responses the server
  writes, and the reply objects the client reads.
- `Server`: the dispatch state machine.
  - `Dispatch` handles one request.
  - `HandleLines`, `Receive` and `Feed` handle a stream of `recv` chunks.
  - `Serve` covers a connection's whole life, including the `finally`
    clean-up.
- `ServerProperties`: lemmas relating several server steps.
- `Client`: the client's helpers.
- `Wire`: the dictionaries the server sends, as the client reads them, and
  what happens end to end. This module also holds the finding below.

The password hash (`sha256`) is a function parameter. Nothing is assumed
about it. JSON decoding is also a parameter: `string -> Request` on the
server and `string -> Option<Reply>` on the client. A request whose field is
absent has that field as `None`.

Some behaviour one might expect of a chat service is absent from this
code, and the model follows the code:

- There is no one-session-per-user check. A name can be logged in on several
  connections at once.
- `/join` does not add a leading `#`.
- There is no `/who`.
- Chat messages go to every live connection except the sender, whatever
  channels anybody joined.
- Disconnect clean-up leaves channel memberships as they are, so channels
  keep stale members (`ServerProperties.DisconnectKeepsStaleMembers`).
- The server checks no username character set.
- The replies to `register` and `login` carry no `action` key (see Findings).

## Model

| member | source | states |
|---|---|---|
| Text.IsSpace | server.py:74-75 | The characters `strip()` removes are Python's `isspace()` set. In ASCII that is exactly space, tab, line feed, vertical tab, form feed, carriage return and the separators 0x1C-0x1F. None of them is a letter or a digit. |
| Text.Strip | server.py:74-75 | `strip()` returns the infix of the input after its leading whitespace, with only whitespace after it. It is empty exactly when the input is all whitespace, and otherwise starts and ends with non-whitespace. |
| Text.StripIdempotent | client.py:238 | Stripping twice gives the same as stripping once. The client strips a line and the server strips it again, so the text is unchanged. |
| Text.Lower | server.py:130 | `lower()` keeps the length. Each upper-case letter becomes the letter 32 code points above it, and every other character is kept. |
| Text.LowerKeepsStripped | server.py:130 | Lower-casing a stripped string leaves it stripped. |
| Text.LowerHasNoUpper | server.py:130 | After `lower()` no character is an upper-case letter. |
| Text.StripKeepsNoUpper | server.py:137 | Stripping a string without upper-case letters leaves none. |
| Framing.Split | client.py:36-38 | The split loop cuts the buffer into lines free of newlines plus a remainder free of newlines. Each line followed by `'\n'`, then the remainder, rebuild the buffer exactly. |
| Framing.SplitIsTheOnlyFraming | client.py:37-38 | This reading of a buffer is unique: any lines and remainder with those three properties are the ones the loop produces. |
| Framing.SplitAppend | client.py:36-38 | Splitting a buffer and then its remainder plus the next chunk gives the same lines and remainder as splitting everything at once. |
| Framing.SplitLoop | server.py:66-68 | The mutable-buffer loop as written (`while '\n' in buffer`) ends with a correct reading of the buffer. It equals `Split`. |
| Server.Start | server.py:16-26 | The startup tables, with the loaded accounts, satisfy the table invariant. |
| Server.Connect | server.py:57 | Accepting a new connection, one no table mentions yet, adds it to the live set. Nothing else changes, and the invariant is kept. |
| Server.Field | server.py:74-75 | A request field reads as empty when absent. Otherwise it is the value's text starting right after its leading whitespace, with only whitespace left behind it. It is empty exactly when the value is all whitespace, and otherwise starts and ends with a non-space character. |
| Server.Disconnect | server.py:157-163 | Clean-up removes the connection from the live set and from the name and color tables. Other connections' entries, the accounts and all channel sets are untouched, and the invariant is kept. |
| Server.Register | server.py:73-97 | An empty stripped name or password answers "Missing fields" and changes nothing. A known name answers "Username taken" and changes nothing. Otherwise: the account `name -> (hash(password), color or 15)` is added with no other account touched; the connection gets that name and color with other connections untouched; the reply carries both. |
| Server.Login | server.py:99-114 | Login succeeds if and only if the stripped name is stored with the hash of the stripped password. On success the connection gets the name and the stored color (default 15), and no other connection changes. Otherwise the reply is "Invalid credentials" and nothing changes. |
| Server.Broadcast | server.py:41-53 | A delivery is sent if and only if it goes to a live connection other than the sender and carries the sender's name (default "Unknown"), color (default 15) and the text. |
| Server.PostMessage | server.py:116-123 | An unauthenticated sender gets "Not authenticated". A blank message is delivered to no one. Otherwise the stripped message is broadcast. The tables never change. |
| Server.Join | server.py:136-138 | Joining creates the channel if needed and adds the connection to it. Every other channel keeps its members, and a new channel goes at the end of the channel order. |
| Server.Leave | server.py:143-146 | `/leave` removes the connection from every channel and keeps every other member and every channel name. |
| Server.ChannelsHolding | server.py:144-145 | The channels `/leave` reports are exactly the listed channels that hold the connection. When the channel order has no duplicates, each is reported once. |
| Server.ChannelsHoldingAppend | server.py:144-150 | The channels are reported in channel order. A channel added at the end of the order comes after all the others, and only when it holds the connection. |
| Server.JoinTarget | server.py:137 | The `/join` channel name is the text after the six-character prefix, starting right after its leading whitespace, with only whitespace left behind it. It is empty exactly when that text is all whitespace, and otherwise starts and ends with a non-space character. |
| Server.RunCommand | server.py:125-150 | Unauthenticated: "Not authenticated" and no change. `/list`: the channel names in insertion order. `/join X`: joins the stripped text after the prefix and answers "Joined channel X". `/leave`: leaves every channel with one notice each. Any other command: nothing. Accounts, names, colors and the live set never change. |
| Server.JoinKeepsOrder | server.py:138 | Creating a channel keeps the channel order free of duplicates and in step with the channel table. |
| Server.Dispatch | server.py:69-153 | One request keeps the table invariant and the live set. Accounts are only ever added. No connection other than the requester changes name or color. A malformed line answers "Invalid JSON" and an unknown action is ignored, both without change. Only an authenticated `message` broadcasts. |
| Server.HandleLines | server.py:67-153 | Handling a run of lines yields one effect per line and keeps the invariant, the live set, the accounts and the other connections' entries. |
| Server.HandleLinesStepwise | server.py:67-153 | Effect i of a run is the dispatch of line i on the tables the earlier lines left, and the run ends on the tables the last line left. |
| Server.HandleLinesAt | server.py:67-70 | Effect i is the dispatch of line i on the tables left by line i-1 (the starting tables for i = 0). |
| Server.HandleLinesEnd | server.py:67-68 | The run ends on the tables the last line left, or the starting tables when there are no lines. |
| Server.Receive | server.py:62-68 | One `recv` keeps exactly the remainder that splitting buffer plus chunk leaves. It handles the lines of that split in order, each on the tables the earlier lines left, and keeps the invariant. |
| Server.Feed | server.py:61-68 | A sequence of chunks keeps the invariant, the live set, the accounts and the other connections' entries. |
| Server.Serve | server.py:55-163 | For a new connection whose life no other connection interleaves with: afterwards it is gone from the live set, and the name and color tables are exactly as before. No account is lost, and the invariant holds. |
| ServerProperties.RegisterThenLogin | server.py:82-112 | After a successful registration, a login with the same credentials from any connection succeeds with the registered color. A login with another password succeeds exactly when its hash is the same. |
| ServerProperties.AccountOutlivesSessions | server.py:157-163 | Whatever a new connection does and however it ends, a stored account can still log in afterwards with its password and color. |
| ServerProperties.BroadcastReachesEveryoneElse | server.py:41-53 | The recipients are exactly the live connections minus the sender. A logged-in sender's name and color are on every copy. |
| ServerProperties.BroadcastIgnoresChannels | server.py:46-47 | Channel membership has no influence on who receives a chat message. |
| ServerProperties.BlankMessageIsNotDelivered | server.py:121-123 | A message that is all whitespace is delivered to no one and changes nothing. |
| ServerProperties.UnauthenticatedIsRefused | server.py:116-128 | A `message` or `command` from a connection that is not logged in answers "Not authenticated" and changes nothing. |
| ServerProperties.CommandTextIsNormalised | server.py:130 | The command text is stripped and has no upper-case letter. |
| ServerProperties.NormalisedJoinTarget | server.py:136-137 | In a stripped, lower-case `/join ` command, the channel name after the prefix is non-empty, stripped and has no upper-case letter. |
| ServerProperties.JoinTailNotBlank | server.py:136-137 | In a stripped `/join ` command, something other than whitespace follows the prefix. |
| ServerProperties.JoinTargetIsNormalised | server.py:130-137 | The channel `/join` names is never empty, is stripped, and has no upper-case letter. |
| ServerProperties.JoinAddsToOneChannel | server.py:136-138 | `/join X` puts the connection in X, changes no other channel, and removes nobody. |
| ServerProperties.LeaveRemovesEverywhere | server.py:143-150 | After `/leave` the connection is in no channel, every other member stays, and there is one notice per channel left. |
| ServerProperties.DisconnectKeepsStaleMembers | server.py:157-163 | A disconnected connection is gone from the live set but still listed in the channels it joined. |
| ServerProperties.HandleLinesAppend | server.py:67-68 | Handling lines `a + b` equals handling `a` and then `b`. |
| ServerProperties.FeedIgnoresChunking | server.py:61-68 | However the stream is cut into `recv` chunks, feeding them ends in the same tables and the same unfinished line as handling every complete line of the whole stream at once. |
| Client.MatchesAlnum | client.py:113 | `re.match("^[a-zA-Z0-9]+$")`, where Python's `$` also matches before a final newline. On a name that does not end in a newline, a match means one or more characters, all ASCII letters or digits. |
| Client.DollarBeforeFinalNewline | client.py:113 | The pattern accepts `"ab\n"`, rejects `"a\nb"` and rejects `"\n"`. |
| Client.CheckUsername | client.py:106-116 | A typed name is accepted if and only if its stripped form has 1 to 12 characters, all ASCII letters or digits. Over 12 characters is "too long", checked before the character set. An accepted name is the stripped text. |
| Client.PromptLoop | client.py:108-116 | The prompt loop answers the first line the check accepts. Every earlier line was refused. It answers `None` only when every line was refused. |
| Client.PromptUsername | client.py:106-116 | `get_valid_username` settles on the first acceptable line. |
| Client.ColorForChoice | client.py:128-130 | Menu number n is accepted if and only if 1 <= n <= 6, and then gives `colors[n-1]`'s code. That code is always one of {6, 4, 11, 15, 13, 9}. |
| Client.ColorChoiceIsBijective | client.py:86-93 | Distinct accepted menu numbers give distinct codes, and every code in {6, 4, 11, 15, 13, 9} is given by some menu number. |
| Client.PromptColor | client.py:124-132 | `choose_color` returns the code of the first line that parses as a valid menu number. It returns `None` only if there is none. |
| Client.Classify | client.py:238-251 | A blank line is skipped. `/exit` in any case ends the session. Anything else is sent stripped but otherwise unchanged, as a command exactly when it starts with `/`. |
| Client.Outgoing | client.py:248-251 | A sent line becomes a `message` or `command` request carrying the text. |
| Client.Route | client.py:46-63 | Routing follows the branch order. The `register` and `login` actions go to their slots before `status == 'error'` is looked at. An error goes before `system` and `message`. Anything else is dropped. |
| Client.RouteLines | client.py:40-66 | One entry per line. An entry is "invalid message" exactly when its line is not JSON, and otherwise it is the routing of the decoded reply. |
| Client.ReceiveChunk | client.py:31-66 | One `recv` keeps exactly the remainder that splitting buffer plus chunk leaves. It gives one entry per line of that split, in order: "invalid message" exactly for the lines that are not JSON, and the routing of the reply for the others. |
| Client.AwaitLogin | client.py:51-55 | The login wait sees a reply exactly when some reply was routed to the login slot, and it sees one of them. |
| Client.LoginFrom | client.py:190-220 | From attempt k on, the loop returns the identity in the first successful answer among the remaining attempts, or `None` when none succeeds. |
| Client.Login | client.py:185-223 | At most three attempts. The result is `(username, color or 15)` from the first success, and `None` exactly when none of the three attempts succeeded (send failure, timeout or error reply). |
| Wire.ListRepr | server.py:134 | `str(list(...))` of the channel names is bracketed. It is `[]` exactly for no names, `['x']` for one name, and otherwise the first name quoted, `, `, then the rest. |
| Wire.EncodeAsWritten | server.py:79-153 | The replies as written: `status` is "error" exactly for failures and "success" exactly for registration and login. `action` is present exactly for system, channel-list and chat messages. |
| Wire.Encode | server.py:92-114 | The corrected encoding tags the replies to `register` and `login` with that action. Otherwise it agrees with the encoding as written. |
| Wire.RouteAsWritten | client.py:46-63 | Responses as written are routed one by one. None reaches the register or login slot, and every registration or login success is dropped. |
| Wire.RouteTagged | client.py:46-55 | With tagged responses, every response to a `login` goes to the login slot and every response to a `register` to the register slot. Responses to anything else are routed as written. |
| Wire.AuthRepliesAreDroppedAsWritten | client.py:46-63 | No response as written reaches the register or login slot. A successful registration or login reply is dropped. |
| Wire.NothingReachesLoginSlot | client.py:52-55 | Whatever the server sends as written, the login wait sees nothing. |
| Wire.LoginNeverCompletesAsWritten | client.py:203-217 | As written, `login()` returns `None` whatever the server sends during its three waits. |
| Wire.ServerAcceptsAlice | server.py:82-112 | On fresh tables, "alice"/"pw" with color 6 registers on one connection, and the server then accepts the login on another. |
| Wire.ThreeTimeoutsFail | client.py:211-214 | Three timeouts end `login()` with `None`. |
| Wire.RegisteredUserCannotLogInAsWritten | client.py:185-223 | The server's own reply to alice's login is a success. Read as written at the first wait, followed by two timeouts, it still leaves `login()` returning `None`. |
| Wire.FirstWaitAsWrittenFails | client.py:203-217 | Whatever the server sends as written during the first wait, two further timeouts make `login()` return `None`. |
| Wire.FirstAnswerWins | client.py:216-217 | A success reply at the first wait ends `login()` at once with its name and color. |
| Wire.LoginCompletesWithTaggedReplies | client.py:216-217 | With tagged replies, a login the server accepts completes on the client at the first attempt, with the stored name and color. |
| Wire.RegistrationReachesClientWhenTagged | client.py:46-49 | With tagged replies, a successful registration reaches the register slot as a success carrying the name and color. |
| Wire.AcceptedUsernameSurvivesServer | server.py:74-80 | A name the client accepts is non-empty and unchanged by the server's `strip()`, so the server never answers "Missing fields" for it. |
| Wire.TypedMessageIsBroadcastVerbatim | server.py:121-123 | A typed chat line from a logged-in client is broadcast with exactly the text the client sent. |

## Left out

- Sockets, `accept`, `recv` and `sendall`, and the threads (server.py:11-14, 166-170; client.py:72-83). A connection is a number. A `recv` result is a chunk in a sequence, and the empty chunk that ends the loop is the end of that sequence.
- Concurrency: handlers run in parallel threads over shared tables without locks. The model runs one request at a time, each as an atomic step, so interleavings inside a step are not modelled.
- Server.Serve, Server.Feed, ServerProperties.FeedIgnoresChunking: these run one connection's whole life with no other connection acting between its requests. In server.py other handler threads change the same tables while this one waits in `recv` (server.py:62). For example, another connection may log in as an existing user meanwhile, so after this connection closes the name table is no longer as before. Under interleaving only the per-step frames of `Dispatch`, `Connect` and `Disconnect` still hold: the invariant, and that only the acting connection's entries change.
- Server.Broadcast: `broadcast_message` loops over `all_clients` (server.py:46) while `send_json` can block in `sendall`. If another thread adds or removes a connection at that moment (server.py:57, 160), Python raises `RuntimeError: Set changed size during iteration`. Neither handler (server.py:152, 155) catches it, so the sender's own handler runs its clean-up and its connection closes. The model computes the broadcast atomically and does not cover this.
- Server.Dispatch, ServerProperties.AccountOutlivesSessions: "accounts are only ever added" and "a stored account can still log in" hold only when requests run one at a time. `register` tests `username in users` and then writes `users[username]` with no lock (server.py:82-88). Two concurrent registrations of one name can both pass the test, and the later write replaces the first account.
- Server.Connect, Server.Serve: a connection id is assumed new (`Fresh`). In Python every accepted socket is a new object, so no table can hold it yet. The model does not cover an id that is reused.
- Client.RouteLines, Client.ReceiveChunk: a line that is valid JSON but not an object (`[1]`, `5`, `"x"`) makes `response.get` raise `AttributeError` (client.py:46-62). Only `JSONDecodeError` is caught at client.py:65. The error reaches client.py:68-70, which prints "Connection error" and ends the receive thread, so no later reply is routed. Client decoding is `string -> Option<Reply>`, and this exit is not modelled.
- JSON encoding and decoding are function parameters. A line that decodes to something other than an object, or a field with a non-string value, makes the Python handler raise and end the connection. The model does not cover that exit.
- `sha256` is a parameter `hash: string -> string`. No property of SHA-256 is used.
- Loading `users.json` and `save_users()` (server.py:21-30): file I/O. The model starts from any given account table, and a failing save is not modelled.
- Text.Lower: only ASCII letters are lower-cased. Python's `lower()` also folds non-ASCII letters.
- Wire.ListRepr: it renders `str(list(...))` for names that need no escaping. Python's quote selection and escaping for names with quotes or backslashes are left out.
- Server.Register: the color comes from the request or defaults to 15. A request whose `color` is present but not an integer is not modelled.
- A `recv` chunk that splits a UTF-8 character makes `.decode()` raise. Chunks here are already characters.
- Client.Login: it takes exactly one outcome per attempt, so it requires at least three outcomes. Extra outcomes are ignored.
- Client.PromptUsername, Client.PromptColor: the programs prompt forever. The model reads a finite list of typed lines and answers `None` when the list runs out.
- `choose_action`, `register()`'s retry loop (client.py:97-104, 149-183) and `main`: menu plumbing around the modelled helpers. The registration reply's routing is covered by `Wire.RegistrationReachesClientWhenTagged`.
- `int()` parsing of the color choice: the color prompt takes each line already through `int()`, with `None` where it raised `ValueError`.
- Printing, ANSI color escapes and debug output.
- Broadcast order: deliveries are a set, because the server iterates a Python set.

## Findings

| source | as written | input that shows it | evidently intended | confidence | as-written member | corrected member |
|---|---|---|---|---|---|---|
| server.py:92-114 | The success and error replies to `register` and `login` carry `status`, `message`, `username` and `color` but no `action`. The client (client.py:46-55) hands a reply to its waiting register or login prompt only when `action` is `register` or `login`. So the success reply is dropped, the wait times out, and `login()` returns `None` after three attempts. | "alice" registers with password "pw" and color 6 on one connection and logs in with the same credentials on another. The server answers with a login success, but the client's three waits see nothing. | The replies to `register` and `login` carry `'action': 'register'` / `'action': 'login'`, so the client's waits receive them and login completes at the first attempt. | high; not executed | Wire.RegisteredUserCannotLogInAsWritten | Wire.LoginCompletesWithTaggedReplies |

=== FILE: base.dfy ===
/** Optional values: Python's `None`, and the result of `dict.get(key)`. */
module Base {

  datatype Option<+T> = None | Some(value: T) {

    /** `d.get(key, default)`: the stored value when present, else the default. */
    function GetOr(default: T): T {
      match this
      case Some(v) => v
      case None => default
    }
  }
}

=== FILE: client.dfy ===
/** The chat client's pure decisions (client.py): checking a chosen
    username, picking a color from the palette, classifying a typed line,
    routing a reply from the server, and the three-attempt login loop. */
module Client {
  import opened Base
  import opened Text
  import opened Protocol
  import Framing

  const MaxUsernameLength := 12

  /** The verdict on one typed username, in the order the prompt checks. */
  datatype UsernameCheck = Accepted(name: string) | TooLong | SpecialCharacters

  /** Every character of `s` is an ASCII letter or digit. */
  predicate AllAlnum(s: string) {
    forall i :: 0 <= i < |s| ==> IsAsciiAlnum(s[i])
  }

  /** `re.match("^[a-zA-Z0-9]+$", name)`. Python's `$` matches at the end of
      the string and also just before a newline that ends it, so a name of
      letters and digits followed by one newline matches as well. On a name
      that does not end in a newline, a match means one or more characters,
      all ASCII letters or digits. */
  function MatchesAlnum(name: string): (b: bool)
    ensures b ==> |name| > 0
    ensures (|name| == 0 || name[|name| - 1] != '\n') ==> (b <==> |name| > 0 && AllAlnum(name))
  {
    || (|name| > 0 && AllAlnum(name))
    || (|name| > 1 && name[|name| - 1] == '\n' && AllAlnum(name[..|name| - 1]))
  }

  /** `$` lets a final newline through but no newline elsewhere; the
      prompt strips the name first, so the newline case never arises. */
  lemma DollarBeforeFinalNewline()
    ensures MatchesAlnum("ab\n") && !MatchesAlnum("a\nb") && !MatchesAlnum("\n")
  {
    var s := "ab\n";
    assert s[..2] == "ab" && AllAlnum("ab");
    assert !IsAsciiAlnum("a\nb"[1]) && !IsAsciiAlnum("\n"[0]);
  }

  /** One round of `get_valid_username`: the stripped input is accepted
      exactly when it has 1 to 12 characters, all ASCII letters or digits. */
  function CheckUsername(raw: string): (v: UsernameCheck)
    ensures v.Accepted? <==>
              && 0 < |Strip(raw)| <= MaxUsernameLength
              && forall i :: 0 <= i < |Strip(raw)| ==> IsAsciiAlnum(Strip(raw)[i])
    ensures v.Accepted? ==> v.name == Strip(raw)
    ensures v == TooLong <==> |Strip(raw)| > MaxUsernameLength
  {
    var name := Strip(raw);
    assert |name| > 0 ==> name[|name| - 1] != '\n';
    if |name| > MaxUsernameLength then TooLong
    else if !MatchesAlnum(name) then SpecialCharacters
    else Accepted(name)
  }

  /** The prompt loop of `get_valid_username`: read lines until `check`
      accepts one, and answer the name it accepted. */
  method PromptLoop(inputs: seq<string>, check: string -> UsernameCheck) returns (r: Option<string>)
    ensures r.None? <==> forall i :: 0 <= i < |inputs| ==> !check(inputs[i]).Accepted?
    ensures r.Some? ==>
              exists i :: 0 <= i < |inputs| && check(inputs[i]) == Accepted(r.value)
                          && forall j :: 0 <= j < i ==> !check(inputs[j]).Accepted?
  {
    var k := 0;
    while k < |inputs|
      invariant 0 <= k <= |inputs|
      invariant forall j :: 0 <= j < k ==> !check(inputs[j]).Accepted?
    {
      var v := check(inputs[k]);
      if v.Accepted? {
        return Some(v.name);
      }
      k := k + 1;
    }
    return None;
  }

  /** `get_valid_username` over the lines the user types: the first
      acceptable one. The program prompts forever; over a finite input the
      model answers `None` when every line is refused. */
  method PromptUsername(inputs: seq<string>) returns (r: Option<string>)
    ensures r.None? <==> forall i :: 0 <= i < |inputs| ==> !CheckUsername(inputs[i]).Accepted?
    ensures r.Some? ==>
              exists i :: 0 <= i < |inputs| && CheckUsername(inputs[i]) == Accepted(r.value)
                          && forall j :: 0 <= j < i ==> !CheckUsername(inputs[j]).Accepted?
  {
    r := PromptLoop(inputs, CheckUsername);
  }

  /** One entry of the color menu: its label and its 256-color code. */
  datatype PaletteEntry = PaletteEntry(title: string, code: int)

  const Palette: seq<PaletteEntry> := [
    PaletteEntry("Light Aqua", 6),
    PaletteEntry("Light Blue", 4),
    PaletteEntry("Yellow", 11),
    PaletteEntry("Bright White", 15),
    PaletteEntry("Light Purple", 13),
    PaletteEntry("Red", 9)
  ]

  /** One round of `choose_color` after `int(choice)` succeeded: menu
      numbers 1 to 6 select that entry's code; anything else is refused. */
  function ColorForChoice(choice: int): (r: Option<int>)
    ensures r.Some? <==> 1 <= choice <= |Palette|
    ensures r.Some? ==> r.value == Palette[choice - 1].code
    ensures r.Some? ==> r.value in {6, 4, 11, 15, 13, 9}
  {
    if 1 <= choice <= |Palette| then Some(Palette[choice - 1].code) else None
  }

  /** Different menu numbers give different colors, and every code on the
      menu can be chosen. */
  lemma ColorChoiceIsBijective(a: int, b: int, code: int)
    ensures ColorForChoice(a).Some? && ColorForChoice(a) == ColorForChoice(b) ==> a == b
    ensures code in {6, 4, 11, 15, 13, 9} ==>
              exists n :: 1 <= n <= |Palette| && ColorForChoice(n) == Some(code)
  {
    if code in {6, 4, 11, 15, 13, 9} {
      var n := if code == 6 then 1 else if code == 4 then 2 else if code == 11 then 3
               else if code == 15 then 4 else if code == 13 then 5 else 6;
      assert ColorForChoice(n) == Some(code);
    }
  }

  /** `choose_color` over the typed lines, each already through `int()`
      (`None` where `int()` raised `ValueError`): the code of the first valid
      menu number. */
  method PromptColor(inputs: seq<Option<int>>) returns (r: Option<int>)
    ensures r.None? <==>
              forall i :: 0 <= i < |inputs| ==> inputs[i].None? || ColorForChoice(inputs[i].value).None?
    ensures r.Some? ==>
              exists i :: 0 <= i < |inputs| && inputs[i].Some? && ColorForChoice(inputs[i].value) == r
                          && forall j :: 0 <= j < i ==> inputs[j].None? || ColorForChoice(inputs[j].value).None?
  {
    var k := 0;
    while k < |inputs|
      invariant 0 <= k <= |inputs|
      invariant forall j :: 0 <= j < k ==> inputs[j].None? || ColorForChoice(inputs[j].value).None?
    {
      if inputs[k].Some? {
        var c := ColorForChoice(inputs[k].value);
        if c.Some? {
          return c;
        }
      }
      k := k + 1;
    }
    return None;
  }

  const ExitCommand := "/exit"

  datatype Kind = MessageKind | CommandKind

  /** What `chat_loop` does with one typed line. */
  datatype InputAction = Skip | Exit | Send(kind: Kind, text: string)

  /** The line is stripped; a blank line is skipped, `/exit` in any case
      ends the session, and anything else is sent unchanged, as a command
      when it starts with `/` and as a message otherwise. */
  function Classify(line: string): (a: InputAction)
    ensures a == Skip <==> Strip(line) == ""
    ensures a == Exit <==> Strip(line) != "" && Lower(Strip(line)) == ExitCommand
    ensures a.Send? ==> a.text == Strip(line) && |a.text| > 0 && (a.kind == CommandKind <==> a.text[0] == '/')
  {
    var msg := Strip(line);
    if |msg| == 0 then Skip
    else if Lower(msg) == ExitCommand then Exit
    else Send(if msg[0] == '/' then CommandKind else MessageKind, msg)
  }

  /** The request object `{action, message}` a sent line becomes. */
  function Outgoing(kind: Kind, text: string): (req: Request)
    ensures req.MessageReq? <==> kind == MessageKind
    ensures req.CommandReq? <==> kind == CommandKind
    ensures req.MessageReq? || req.CommandReq?
    ensures req.message == Some(text)
  {
    match kind
    case MessageKind => MessageReq(Some(text))
    case CommandKind => CommandReq(Some(text))
  }

  /** Where `receive_messages` sends one decoded reply. */
  datatype Routed =
    | ToRegistration(reply: Reply)   // stored for `register()` to read
    | ToLogin(reply: Reply)          // stored for `login()` to read
    | ShowError(text: Option<string>)
    | ShowSystem(text: Option<string>)
    | ShowChat(sender: Option<string>, text: Option<string>)
    | Dropped                        // matched no branch
    | ShowInvalid                    // the line was not valid JSON

  /** The branch order of `receive_messages`: the `register` and `login`
      actions are checked before `status == 'error'`, which comes before
      the `system` and `message` actions. */
  function Route(o: Reply): (r: Routed)
    ensures r.ToRegistration? <==> o.action == Some("register")
    ensures r.ToLogin? <==> o.action == Some("login")
    ensures r.ShowError? <==>
              o.action != Some("register") && o.action != Some("login") && o.status == Some("error")
    ensures r.ShowSystem? <==> o.action == Some("system") && o.status != Some("error")
    ensures r.ShowChat? <==> o.action == Some("message") && o.status != Some("error")
    ensures r.ToRegistration? || r.ToLogin? ==> r.reply == o
    ensures r.ShowError? || r.ShowSystem? ==> r.text == o.message
    ensures r.ShowChat? ==> r.sender == o.sender && r.text == o.message
    ensures !r.ShowInvalid?
  {
    if o.action == Some("register") then ToRegistration(o)
    else if o.action == Some("login") then ToLogin(o)
    else if o.status == Some("error") then ShowError(o.message)
    else if o.action == Some("system") then ShowSystem(o.message)
    else if o.action == Some("message") then ShowChat(o.sender, o.message)
    else Dropped
  }

  /** Decode then route each line; a line that is not JSON is reported. */
  function RouteLines(lines: seq<string>, decode: string -> Option<Reply>): (r: seq<Routed>)
    ensures |r| == |lines|
    ensures forall i :: 0 <= i < |lines| ==> (r[i] == ShowInvalid <==> decode(lines[i]).None?)
    ensures forall i :: 0 <= i < |lines| && decode(lines[i]).Some? ==> r[i] == Route(decode(lines[i]).value)
  {
    seq(|lines|, i requires 0 <= i < |lines| =>
      if decode(lines[i]).Some? then Route(decode(lines[i]).value) else ShowInvalid)
  }

  /** One `recv` in `receive_messages`: the chunk is appended to the buffer,
      every complete line is routed in order, and the remainder is kept. */
  function ReceiveChunk(buffer: string, chunk: string, decode: string -> Option<Reply>): (r: (seq<Routed>, string))
    ensures r.1 == Framing.Split(buffer + chunk).rest
    ensures var lines := Framing.Split(buffer + chunk).lines;
            && |r.0| == |lines|
            && (forall i :: 0 <= i < |lines| ==> (r.0[i] == ShowInvalid <==> decode(lines[i]).None?))
            && (forall i :: 0 <= i < |lines| && decode(lines[i]).Some? ==> r.0[i] == Route(decode(lines[i]).value))
  {
    var f := Framing.Split(buffer + chunk);
    (RouteLines(f.lines, decode), f.rest)
  }

  /** How one login attempt ended: the send failed, the 5-second wait saw no
      reply in the login slot, or it saw one. */
  datatype Attempt = SendFailed | NoResponse | Answered(reply: Reply)

  /** What `login()` returns on success: `(response.get('username'),
      response.get('color', 15))`. */
  datatype Identity = Identity(username: Option<string>, color: int)

  const MaxLoginAttempts := 3
  const DefaultColor := 15

  /** The value the login wait reads: the latest reply routed to the login
      slot (each one overwrites the last), or nothing. */
  function AwaitLogin(routed: seq<Routed>): (a: Attempt)
    ensures a.Answered? <==> exists i :: 0 <= i < |routed| && routed[i].ToLogin?
    ensures a.Answered? ==> exists i :: 0 <= i < |routed| && routed[i] == ToLogin(a.reply)
    ensures !a.SendFailed?
  {
    if routed == [] then NoResponse
    else if routed[|routed| - 1].ToLogin? then Answered(routed[|routed| - 1].reply)
    else
      var a := AwaitLogin(routed[..|routed| - 1]);
      assert forall i :: 0 <= i < |routed| - 1 ==> routed[..|routed| - 1][i] == routed[i];
      a
  }

  predicate Succeeded(a: Attempt) {
    a.Answered? && a.reply.status == Some("success")
  }

  function IdentityOf(o: Reply): Identity {
    Identity(o.username, o.color.GetOr(DefaultColor))
  }

  /** The `while attempts < 3` loop of `login()` from attempt `attempts` on.
      Every ending other than a `success` reply costs one attempt. */
  function LoginFrom(outcomes: seq<Attempt>, attempts: nat): (r: Option<Identity>)
    requires attempts <= MaxLoginAttempts <= |outcomes|
    ensures r.None? <==> forall i :: attempts <= i < MaxLoginAttempts ==> !Succeeded(outcomes[i])
    ensures r.Some? ==>
              exists i :: attempts <= i < MaxLoginAttempts && Succeeded(outcomes[i])
                          && (forall j :: attempts <= j < i ==> !Succeeded(outcomes[j]))
                          && r.value == IdentityOf(outcomes[i].reply)
    decreases MaxLoginAttempts - attempts
  {
    if attempts == MaxLoginAttempts then None
    else
      match outcomes[attempts]
      case SendFailed => LoginFrom(outcomes, attempts + 1)
      case NoResponse => LoginFrom(outcomes, attempts + 1)
      case Answered(o) =>
        if o.status == Some("success") then Some(IdentityOf(o)) else LoginFrom(outcomes, attempts + 1)
  }

  /** `login()`: one outcome per attempt, at most three attempts. It returns
      the identity of the first successful reply among the first three
      outcomes, and `None` when none of them succeeded. */
  function Login(outcomes: seq<Attempt>): (r: Option<Identity>)
    requires |outcomes| >= MaxLoginAttempts
    ensures r.None? <==> forall i :: 0 <= i < MaxLoginAttempts ==> !Succeeded(outcomes[i])
    ensures r.Some? ==>
              exists i :: 0 <= i < MaxLoginAttempts && Succeeded(outcomes[i])
                          && (forall j :: 0 <= j < i ==> !Succeeded(outcomes[j]))
                          && r.value == IdentityOf(outcomes[i].reply)
  {
    LoginFrom(outcomes, 0)
  }
}

=== FILE: framing.dfy ===
/** Newline-delimited framing of a receive buffer. Both programs append each
    received chunk to a buffer and then, while the buffer holds a newline,
    cut off the text before the first newline as one line. */
module Framing {

  /** The complete lines cut from a buffer, and the unterminated remainder. */
  datatype Frames = Frames(lines: seq<string>, rest: string)

  /** The chunks of a stream, in order, as one string. */
  function Concat(chunks: seq<string>): string {
    if chunks == [] then "" else chunks[0] + Concat(chunks[1..])
  }

  /** Every line followed by its newline, concatenated. */
  function Unlines(lines: seq<string>): string {
    if lines == [] then "" else lines[0] + "\n" + Unlines(lines[1..])
  }

  /** `f` is a way of reading `buffer` as newline-free lines, each ended by a
      newline, followed by a newline-free remainder. */
  ghost predicate IsFraming(buffer: string, f: Frames) {
    && '\n' !in f.rest
    && NoNewlines(f.lines)
    && Unlines(f.lines) + f.rest == buffer
  }

  ghost predicate NoNewlines(lines: seq<string>) {
    forall k :: 0 <= k < |lines| ==> '\n' !in lines[k]
  }

  /** The position of the first newline in `s`. */
  function FirstNewline(s: string): (i: nat)
    requires '\n' in s
    ensures i < |s| && s[i] == '\n'
    ensures '\n' !in s[..i]
  {
    if s[0] == '\n' then 0
    else
      var k := FirstNewline(s[1..]);
      assert s[..k + 1] == [s[0]] + s[1..][..k];
      k + 1
  }

  /** The line before the first newline, then a framing of what follows
      that newline, frame the whole buffer. */
  lemma FramingCons(buffer: string, i: nat, tail: Frames)
    requires i < |buffer| && buffer[i] == '\n' && '\n' !in buffer[..i]
    requires IsFraming(buffer[i + 1..], tail)
    ensures IsFraming(buffer, Frames([buffer[..i]] + tail.lines, tail.rest))
  {
    var lines := [buffer[..i]] + tail.lines;
    assert lines[1..] == tail.lines;
    assert buffer == buffer[..i] + "\n" + buffer[i + 1..];
    forall k | 0 <= k < |lines|
      ensures '\n' !in lines[k]
    {
      if k > 0 {
        assert lines[k] == tail.lines[k - 1];
      }
    }
  }

  /** `line, buffer = buffer.split('\n', 1)` repeated while `'\n' in buffer`. */
  function Split(buffer: string): (f: Frames)
    ensures IsFraming(buffer, f)
    decreases |buffer|
  {
    if '\n' in buffer then
      var i := FirstNewline(buffer);
      var tail := Split(buffer[i + 1..]);
      FramingCons(buffer, i, tail);
      Frames([buffer[..i]] + tail.lines, tail.rest)
    else
      Frames([], buffer)
  }

  lemma {:induction false} UnlinesAppend(a: seq<string>, b: seq<string>)
    ensures Unlines(a + b) == Unlines(a) + Unlines(b)
    decreases |a|
  {
    if a != [] {
      assert (a + b)[1..] == a[1..] + b;
      UnlinesAppend(a[1..], b);
    } else {
      assert a + b == b;
    }
  }

  /** The framing of a buffer is unique: whatever reading of the buffer as
      lines and remainder one takes, it is the one the split loop finds. */
  lemma {:induction false} SplitIsTheOnlyFraming(buffer: string, f: Frames)
    requires IsFraming(buffer, f)
    ensures Split(buffer) == f
    decreases |buffer|
  {
    if f.lines == [] {
      assert Unlines(f.lines) == "";
      assert buffer == f.rest;
    } else {
      var i := |f.lines[0]|;
      FirstLineOfFraming(buffer, f);
      SplitIsTheOnlyFraming(buffer[i + 1..], Frames(f.lines[1..], f.rest));
      assert Split(buffer) == Frames([buffer[..i]] + Split(buffer[i + 1..]).lines, f.rest);
      assert [f.lines[0]] + f.lines[1..] == f.lines;
    }
  }

  /** In a framing with at least one line, the first line ends at the
      buffer's first newline and the other lines frame what follows it. */
  lemma FirstLineOfFraming(buffer: string, f: Frames)
    requires IsFraming(buffer, f) && f.lines != []
    ensures '\n' in buffer && FirstNewline(buffer) == |f.lines[0]|
    ensures buffer[..|f.lines[0]|] == f.lines[0]
    ensures IsFraming(buffer[|f.lines[0]| + 1..], Frames(f.lines[1..], f.rest))
  {
    var a := f.lines[0];
    var tail := Frames(f.lines[1..], f.rest);
    var more := Unlines(f.lines[1..]) + f.rest;
    assert buffer == a + "\n" + more;
    assert buffer[..|a|] == a;
    assert buffer[|a|] == '\n';
    assert FirstNewline(buffer) == |a|;
    assert buffer[|a| + 1..] == more;
    forall k | 0 <= k < |tail.lines|
      ensures '\n' !in tail.lines[k]
    {
      assert tail.lines[k] == f.lines[k + 1];
    }
  }

  lemma NoNewlinesAppend(a: seq<string>, b: seq<string>)
    requires NoNewlines(a) && NoNewlines(b)
    ensures NoNewlines(a + b)
  {
    forall k | 0 <= k < |a + b|
      ensures '\n' !in (a + b)[k]
    {
      if k < |a| {
        assert (a + b)[k] == a[k];
      } else {
        assert (a + b)[k] == b[k - |a|];
      }
    }
  }

  /** Framings compose: lines of the first part, then lines of its
      remainder followed by more text. */
  lemma FramingConcat(x: string, chunk: string, f: Frames, g: Frames)
    requires IsFraming(x, f) && IsFraming(f.rest + chunk, g)
    ensures IsFraming(x + chunk, Frames(f.lines + g.lines, g.rest))
  {
    UnlinesAppend(f.lines, g.lines);
    NoNewlinesAppend(f.lines, g.lines);
    calc {
      Unlines(f.lines + g.lines) + g.rest;
      (Unlines(f.lines) + Unlines(g.lines)) + g.rest;
      Unlines(f.lines) + (Unlines(g.lines) + g.rest);
      Unlines(f.lines) + (f.rest + chunk);
      (Unlines(f.lines) + f.rest) + chunk;
      x + chunk;
    }
  }

  /** Cutting a stream into chunks does not change its lines: splitting the
      first part, then splitting its remainder followed by the next chunk,
      yields the same lines and remainder as splitting everything at once. */
  lemma {:induction false} SplitAppend(buffer: string, chunk: string)
    ensures Split(buffer + chunk)
         == Frames(Split(buffer).lines + Split(Split(buffer).rest + chunk).lines,
                   Split(Split(buffer).rest + chunk).rest)
  {
    var f := Split(buffer);
    var g := Split(f.rest + chunk);
    FramingConcat(buffer, chunk, f, g);
    SplitIsTheOnlyFraming(buffer + chunk, Frames(f.lines + g.lines, g.rest));
  }

  /** One turn of the split loop keeps the lines cut so far, followed by
      the buffer still to cut, equal to the whole input. */
  lemma SplitLoopStep(done: seq<string>, rest: string, i: nat)
    requires i < |rest| && rest[i] == '\n' && '\n' !in rest[..i] && NoNewlines(done)
    ensures Unlines(done + [rest[..i]]) + rest[i + 1..] == Unlines(done) + rest
    ensures NoNewlines(done + [rest[..i]])
  {
    var line := rest[..i];
    UnlinesAppend(done, [line]);
    assert Unlines([line]) == line + "\n" by {
      assert [line][1..] == [];
    }
    assert rest == line + "\n" + rest[i + 1..];
    NoNewlinesAppend(done, [line]);
  }

  /** The split loop as the programs write it, over a mutable buffer. */
  method SplitLoop(buffer: string) returns (lines: seq<string>, rest: string)
    ensures IsFraming(buffer, Frames(lines, rest))
    ensures Frames(lines, rest) == Split(buffer)
  {
    lines, rest := [], buffer;
    while '\n' in rest
      invariant Unlines(lines) + rest == buffer
      invariant NoNewlines(lines)
      decreases |rest|
    {
      var i := FirstNewline(rest);
      SplitLoopStep(lines, rest, i);
      lines, rest := lines + [rest[..i]], rest[i + 1..];
    }
    SplitIsTheOnlyFraming(buffer, Frames(lines, rest));
  }
}

=== FILE: protocol.dfy ===
/** The shapes that cross the wire between the chat client and server, after
    JSON decoding: the requests the server dispatches on, the responses it
    writes, and the reply objects as the client reads them. */
module Protocol {
  import opened Base

  /** A client connection. The server keys its tables by socket object; the
      model keys them by an opaque connection number. */
  type Conn = nat

  /** The password digest (`hash_password`, SHA-256 in hex), kept uninterpreted. */
  type Hasher = string -> string

  /** A decoded request line, by its `action` field. A field the line does
      not carry is `None`. */
  datatype Request =
    | RegisterReq(username: Option<string>, password: Option<string>, color: Option<int>)
    | LoginReq(username: Option<string>, password: Option<string>)
    | MessageReq(message: Option<string>)
    | CommandReq(message: Option<string>)
    | OtherReq    // an object whose `action` is missing or unknown
    | Malformed   // a line that is not valid JSON

  const MissingFields := "Missing fields"
  const UsernameTaken := "Username taken"
  const InvalidCredentials := "Invalid credentials"
  const NotAuthenticated := "Not authenticated"
  const InvalidJson := "Invalid JSON"
  const RegistrationComplete := "Registration complete"
  const LoginSuccessful := "Login successful"
  const JoinedChannel := "Joined channel "
  const LeftChannel := "Left channel "

  /** What the server writes to a connection. */
  datatype Response =
    | Failure(message: string)                      // {status: error, message}
    | Registered(username: string, color: int)      // {status: success, message: "Registration complete", ...}
    | LoggedIn(username: string, color: int)        // {status: success, message: "Login successful", ...}
    | System(message: string)                       // {action: system, message}
    | ChannelList(names: seq<string>)               // {action: system, message: "Available channels: [...]"}
    | Chat(sender: string, color: int, message: string)  // {action: message, from, color, message}

  /** A JSON object as the client reads it: each key it looks at, `None`
      when absent. `sender` is the `from` key. */
  datatype Reply = Reply(
    action: Option<string>,
    status: Option<string>,
    message: Option<string>,
    sender: Option<string>,
    username: Option<string>,
    color: Option<int>)
}

=== FILE: server.dfy ===
/** The chat server's request dispatch (`handle_client` in server.py) as a
    state machine over its shared tables. One step takes a connection and a
    decoded request and yields the next tables, the responses written back
    to that connection, and the chat deliveries to other connections. */
module Server {
  import opened Base
  import opened Text
  import opened Protocol
  import Framing

  /** A stored credential: `{password: <hash>, color: <color>}`. Records
      loaded from the users file may lack the color. */
  datatype Account = Account(passwordHash: string, color: Option<int>)

  /** The server's module-level tables. `channelOrder` is the insertion
      order of the `channels` dictionary, which `/list` and `/leave` follow. */
  datatype State = State(
    users: map<string, Account>,
    authenticated: map<Conn, string>,
    colors: map<Conn, int>,
    channels: map<string, set<Conn>>,
    channelOrder: seq<string>,
    clients: set<Conn>)

  const DefaultColor := 15
  const UnknownSender := "Unknown"
  const ListCommand := "/list"
  const JoinCommand := "/join "
  const LeaveCommand := "/leave"

  /** One chat message written to one connection. */
  datatype Delivery = Delivery(to: Conn, response: Response)

  /** The result of one step: the next tables, the responses written to the
      requesting connection (in order), and the broadcast deliveries (a set:
      the server walks a Python set, whose order is unspecified). */
  datatype Effect = Effect(next: State, replies: seq<Response>, broadcast: set<Delivery>)

  /** The tables at startup, given the accounts loaded from the users file. */
  function Start(users: map<string, Account>): (s: State)
    ensures Inv(s)
  {
    State(users, map[], map[], map[], [], {})
  }

  predicate NoDuplicates(xs: seq<string>) {
    forall i, j :: 0 <= i < j < |xs| ==> xs[i] != xs[j]
  }

  /** What every step keeps true: a connection has a color exactly when it
      is authenticated; authenticated connections are live and name a
      stored account; the channel order lists each channel once. */
  ghost predicate Inv(s: State) {
    && s.authenticated.Keys == s.colors.Keys
    && s.authenticated.Keys <= s.clients
    && (forall c :: c in s.authenticated ==> s.authenticated[c] in s.users)
    && NoDuplicates(s.channelOrder)
    && (forall n :: n in s.channelOrder <==> n in s.channels)
  }

  /** `a` and `b` hold the same entries at every key other than `k`. */
  ghost predicate AgreeExcept<K(!new), V>(a: map<K, V>, b: map<K, V>, k: K) {
    forall x :: x != k ==> (x in a <==> x in b) && (x in a ==> a[x] == b[x])
  }

  /** Accounts are never removed or altered, only added. */
  ghost predicate AccountsKept(before: map<string, Account>, after: map<string, Account>) {
    forall u :: u in before ==> u in after && after[u] == before[u]
  }

  /** `data.get(key, '').strip()`: an absent field reads as empty, and a
      present one is its text after the leading whitespace, with only
      whitespace left behind it. */
  function Field(v: Option<string>): (r: string)
    ensures v.None? ==> r == ""
    ensures var x := v.GetOr("");
            && LeadingSpace(x) + |r| <= |x|
            && r == x[LeadingSpace(x)..LeadingSpace(x) + |r|]
            && AllSpace(x[LeadingSpace(x) + |r|..])
    ensures r == "" <==> AllSpace(v.GetOr(""))
    ensures r != "" ==> !IsSpace(r[0]) && !IsSpace(r[|r| - 1])
  {
    Strip(v.GetOr(""))
  }

  /** The members of a channel; a name never joined has none (`defaultdict(set)`). */
  function Members(s: State, name: string): set<Conn> {
    if name in s.channels then s.channels[name] else {}
  }

  /** `conn` is a new socket: no table mentions it yet. Every accepted
      socket is a new object, so the tables cannot hold it already. */
  predicate Fresh(s: State, conn: Conn) {
    && conn !in s.clients && conn !in s.authenticated && conn !in s.colors
    && forall n :: n in s.channels ==> conn !in s.channels[n]
  }

  /** A new connection is accepted (`all_clients.add(conn)`). */
  function Connect(s: State, conn: Conn): (t: State)
    requires Fresh(s, conn)
    ensures t.clients == s.clients + {conn}
    ensures t.users == s.users && t.authenticated == s.authenticated && t.colors == s.colors
    ensures t.channels == s.channels && t.channelOrder == s.channelOrder
    ensures Inv(s) ==> Inv(t)
  {
    s.(clients := s.clients + {conn})
  }

  /** The `finally` clean-up: the connection leaves the live set and loses
      its name and color. Channel memberships are left as they are. */
  function Disconnect(s: State, conn: Conn): (t: State)
    ensures t.clients == s.clients - {conn}
    ensures conn !in t.authenticated && conn !in t.colors
    ensures AgreeExcept(s.authenticated, t.authenticated, conn)
    ensures AgreeExcept(s.colors, t.colors, conn)
    ensures t.users == s.users && t.channels == s.channels && t.channelOrder == s.channelOrder
    ensures Inv(s) ==> Inv(t)
  {
    s.(clients := s.clients - {conn},
       authenticated := s.authenticated - {conn},
       colors := s.colors - {conn})
  }

  /** A `register` request. */
  function Register(s: State, conn: Conn, username: Option<string>, password: Option<string>,
                    color: Option<int>, hash: Hasher): (e: Effect)
    ensures e.broadcast == {} && |e.replies| == 1
    ensures e.next.clients == s.clients
    ensures e.next.channels == s.channels && e.next.channelOrder == s.channelOrder
    ensures Field(username) == "" || Field(password) == "" ==>
              e.replies == [Failure(MissingFields)] && e.next == s
    ensures Field(username) != "" && Field(password) != "" && Field(username) in s.users ==>
              e.replies == [Failure(UsernameTaken)] && e.next == s
    ensures e.replies[0].Registered? <==>
              Field(username) != "" && Field(password) != "" && Field(username) !in s.users
    ensures e.replies[0].Registered? ==>
              var u, c := Field(username), color.GetOr(DefaultColor);
              && e.replies[0] == Registered(u, c)
              && e.next.users.Keys == s.users.Keys + {u}
              && e.next.users[u] == Account(hash(Field(password)), Some(c))
              && AccountsKept(s.users, e.next.users)
              && conn in e.next.authenticated && e.next.authenticated[conn] == u
              && conn in e.next.colors && e.next.colors[conn] == c
              && AgreeExcept(s.authenticated, e.next.authenticated, conn)
              && AgreeExcept(s.colors, e.next.colors, conn)
  {
    var u, p, c := Field(username), Field(password), color.GetOr(DefaultColor);
    if u == "" || p == "" then
      Effect(s, [Failure(MissingFields)], {})
    else if u in s.users then
      Effect(s, [Failure(UsernameTaken)], {})
    else
      var t := s.(users := s.users[u := Account(hash(p), Some(c))],
                  authenticated := s.authenticated[conn := u],
                  colors := s.colors[conn := c]);
      Effect(t, [Registered(u, c)], {})
  }

  /** A `login` request. There is no empty-field check and no check that
      the name is already logged in elsewhere. */
  function Login(s: State, conn: Conn, username: Option<string>, password: Option<string>,
                 hash: Hasher): (e: Effect)
    ensures e.broadcast == {} && |e.replies| == 1
    ensures e.next.users == s.users && e.next.clients == s.clients
    ensures e.next.channels == s.channels && e.next.channelOrder == s.channelOrder
    ensures e.replies[0].LoggedIn? <==>
              Field(username) in s.users && s.users[Field(username)].passwordHash == hash(Field(password))
    ensures !e.replies[0].LoggedIn? ==> e.replies == [Failure(InvalidCredentials)] && e.next == s
    ensures e.replies[0].LoggedIn? ==>
              var u := Field(username);
              var c := s.users[u].color.GetOr(DefaultColor);
              && e.replies[0] == LoggedIn(u, c)
              && conn in e.next.authenticated && e.next.authenticated[conn] == u
              && conn in e.next.colors && e.next.colors[conn] == c
              && AgreeExcept(s.authenticated, e.next.authenticated, conn)
              && AgreeExcept(s.colors, e.next.colors, conn)
  {
    var u, p := Field(username), Field(password);
    if u in s.users && s.users[u].passwordHash == hash(p) then
      var c := s.users[u].color.GetOr(DefaultColor);
      var t := s.(authenticated := s.authenticated[conn := u], colors := s.colors[conn := c]);
      Effect(t, [LoggedIn(u, c)], {})
    else
      Effect(s, [Failure(InvalidCredentials)], {})
  }

  /** The name a chat message is sent under: `authenticated_users.get(conn, "Unknown")`. */
  function SenderName(s: State, conn: Conn): string {
    if conn in s.authenticated then s.authenticated[conn] else UnknownSender
  }

  /** The color a chat message is sent with: `client_colors.get(conn, 15)`. */
  function SenderColor(s: State, conn: Conn): int {
    if conn in s.colors then s.colors[conn] else DefaultColor
  }

  /** `broadcast_message`: every live connection except the sender gets the
      message, under the sender's name and color. */
  function Broadcast(s: State, sender: Conn, text: string): (out: set<Delivery>)
    ensures forall d :: d in out <==>
              && d.to in s.clients && d.to != sender
              && d.response == Chat(SenderName(s, sender), SenderColor(s, sender), text)
  {
    set c | c in s.clients && c != sender :: Delivery(c, Chat(SenderName(s, sender), SenderColor(s, sender), text))
  }

  /** A `message` request. */
  function PostMessage(s: State, conn: Conn, message: Option<string>): (e: Effect)
    ensures e.next == s
    ensures conn !in s.authenticated ==> e.replies == [Failure(NotAuthenticated)] && e.broadcast == {}
    ensures conn in s.authenticated ==> e.replies == []
    ensures conn in s.authenticated && Field(message) == "" ==> e.broadcast == {}
    ensures conn in s.authenticated && Field(message) != "" ==>
              e.broadcast == Broadcast(s, conn, Field(message))
  {
    if conn !in s.authenticated then
      Effect(s, [Failure(NotAuthenticated)], {})
    else
      var text := Field(message);
      if text != "" then Effect(s, [], Broadcast(s, conn, text)) else Effect(s, [], {})
  }

  /** `channels[name].add(conn)`: the channel is created on first use and
      appended to the channel order. */
  function Join(s: State, conn: Conn, name: string): (t: State)
    ensures t.channels.Keys == s.channels.Keys + {name}
    ensures Members(t, name) == Members(s, name) + {conn}
    ensures forall n :: n != name ==> Members(t, n) == Members(s, n)
    ensures t.channelOrder == if name in s.channels then s.channelOrder else s.channelOrder + [name]
    ensures t.users == s.users && t.authenticated == s.authenticated
    ensures t.colors == s.colors && t.clients == s.clients
  {
    if name in s.channels then
      s.(channels := s.channels[name := s.channels[name] + {conn}])
    else
      s.(channels := s.channels[name := {conn}], channelOrder := s.channelOrder + [name])
  }

  /** The `/leave` loop: the connection is removed from every channel. */
  function Leave(s: State, conn: Conn): (t: State)
    ensures t.channels.Keys == s.channels.Keys
    ensures forall n :: Members(t, n) == Members(s, n) - {conn}
    ensures t.channelOrder == s.channelOrder
    ensures t.users == s.users && t.authenticated == s.authenticated
    ensures t.colors == s.colors && t.clients == s.clients
  {
    s.(channels := map n | n in s.channels :: s.channels[n] - {conn})
  }

  /** The channels, in channel order, that hold `conn`. */
  function ChannelsHolding(order: seq<string>, channels: map<string, set<Conn>>, conn: Conn): (r: seq<string>)
    ensures forall n :: n in r <==> n in order && n in channels && conn in channels[n]
    ensures |r| <= |order|
    ensures NoDuplicates(order) ==> NoDuplicates(r)
  {
    if order == [] then []
    else
      var tail := ChannelsHolding(order[1..], channels, conn);
      if order[0] in channels && conn in channels[order[0]] then
        assert order[0] !in order[1..] ==> order[0] !in tail;
        [order[0]] + tail
      else tail
  }

  /** The channels come in channel order: a channel added at the end of
      the order is reported after all the others, and only when it holds
      the connection. */
  lemma {:induction false} ChannelsHoldingAppend(order: seq<string>, channels: map<string, set<Conn>>,
                                                 conn: Conn, n: string)
    ensures ChannelsHolding(order + [n], channels, conn)
         == ChannelsHolding(order, channels, conn) + (if n in channels && conn in channels[n] then [n] else [])
    decreases |order|
  {
    if order == [] {
      assert order + [n] == [n];
      assert [n][1..] == [];
    } else {
      assert (order + [n])[0] == order[0];
      assert (order + [n])[1..] == order[1..] + [n];
      ChannelsHoldingAppend(order[1..], channels, conn, n);
    }
  }

  /** One "Left channel" notice per channel left, in channel order. */
  function LeftNotices(names: seq<string>): (r: seq<Response>)
    ensures |r| == |names|
    ensures forall i :: 0 <= i < |names| ==> r[i] == System(LeftChannel + names[i])
  {
    seq(|names|, i requires 0 <= i < |names| => System(LeftChannel + names[i]))
  }

  /** `data.get('message', '').strip().lower()`. */
  function CommandText(message: Option<string>): string {
    Lower(Field(message))
  }

  /** The channel named by a `/join ` command: `cmd[6:].strip()`, the text
      after the six-character prefix without its surrounding whitespace. */
  function JoinTarget(cmd: string): (name: string)
    requires StartsWith(cmd, JoinCommand)
    ensures |name| <= |cmd| - |JoinCommand|
    ensures var tail := cmd[|JoinCommand|..];
            && LeadingSpace(tail) + |name| <= |tail|
            && name == tail[LeadingSpace(tail)..LeadingSpace(tail) + |name|]
            && AllSpace(tail[LeadingSpace(tail) + |name|..])
    ensures name == "" <==> AllSpace(cmd[|JoinCommand|..])
    ensures name != "" ==> !IsSpace(name[0]) && !IsSpace(name[|name| - 1])
  {
    Strip(cmd[|JoinCommand|..])
  }

  /** A `command` request: `/list`, `/join <name>` and `/leave`, after
      stripping and lower-casing the text. Any other command is ignored. */
  function RunCommand(s: State, conn: Conn, message: Option<string>): (e: Effect)
    ensures e.broadcast == {}
    ensures e.next.users == s.users && e.next.authenticated == s.authenticated
    ensures e.next.colors == s.colors && e.next.clients == s.clients
    ensures conn !in s.authenticated ==> e.replies == [Failure(NotAuthenticated)] && e.next == s
    ensures conn in s.authenticated && CommandText(message) == ListCommand ==>
              e.next == s && e.replies == [ChannelList(s.channelOrder)]
    ensures conn in s.authenticated && StartsWith(CommandText(message), JoinCommand) ==>
              var name := JoinTarget(CommandText(message));
              e.next == Join(s, conn, name) && e.replies == [System(JoinedChannel + name)]
    ensures conn in s.authenticated && CommandText(message) == LeaveCommand ==>
              e.next == Leave(s, conn)
              && e.replies == LeftNotices(ChannelsHolding(s.channelOrder, s.channels, conn))
    ensures conn in s.authenticated && CommandText(message) != ListCommand
            && CommandText(message) != LeaveCommand && !StartsWith(CommandText(message), JoinCommand) ==>
              e.next == s && e.replies == []
  {
    assert !StartsWith(LeaveCommand, JoinCommand) by {
      assert LeaveCommand[1] != JoinCommand[1];
    }
    if conn !in s.authenticated then
      Effect(s, [Failure(NotAuthenticated)], {})
    else
      var cmd := CommandText(message);
      if cmd == ListCommand then
        Effect(s, [ChannelList(s.channelOrder)], {})
      else if StartsWith(cmd, JoinCommand) then
        var name := JoinTarget(cmd);
        Effect(Join(s, conn, name), [System(JoinedChannel + name)], {})
      else if cmd == LeaveCommand then
        Effect(Leave(s, conn), LeftNotices(ChannelsHolding(s.channelOrder, s.channels, conn)), {})
      else
        Effect(s, [], {})
  }

  /** One request line, dispatched on its action. Whatever the request, only
      the requesting connection's name and color can change, accounts are
      only ever added, and the set of live connections stays the same. */
  function Dispatch(s: State, conn: Conn, req: Request, hash: Hasher): (e: Effect)
    ensures Inv(s) && conn in s.clients ==> Inv(e.next)
    ensures e.next.clients == s.clients
    ensures AccountsKept(s.users, e.next.users)
    ensures AgreeExcept(s.authenticated, e.next.authenticated, conn)
    ensures AgreeExcept(s.colors, e.next.colors, conn)
    ensures !req.RegisterReq? && !req.LoginReq? ==>
              e.next.users == s.users && e.next.authenticated == s.authenticated && e.next.colors == s.colors
    ensures req.Malformed? ==> e == Effect(s, [Failure(InvalidJson)], {})
    ensures req.OtherReq? ==> e == Effect(s, [], {})
    ensures e.broadcast != {} ==> req.MessageReq? && conn in s.authenticated
  {
    match req
    case RegisterReq(u, p, c) => Register(s, conn, u, p, c, hash)
    case LoginReq(u, p) => Login(s, conn, u, p, hash)
    case MessageReq(m) => PostMessage(s, conn, m)
    case CommandReq(m) =>
      var e := RunCommand(s, conn, m);
      assert Inv(s) ==> Inv(e.next) by {
        if Inv(s) && conn in s.authenticated && CommandText(m) != ListCommand
           && StartsWith(CommandText(m), JoinCommand) {
          JoinKeepsOrder(s, conn, JoinTarget(CommandText(m)));
        }
      }
      e
    case OtherReq => Effect(s, [], {})
    case Malformed => Effect(s, [Failure(InvalidJson)], {})
  }

  lemma JoinKeepsOrder(s: State, conn: Conn, name: string)
    requires Inv(s)
    ensures Inv(Join(s, conn, name))
  {
    var t := Join(s, conn, name);
    if name !in s.channels {
      assert name !in s.channelOrder;
      forall i, j | 0 <= i < j < |t.channelOrder|
        ensures t.channelOrder[i] != t.channelOrder[j]
      {
        if j == |s.channelOrder| {
          assert t.channelOrder[i] == s.channelOrder[i];
        }
      }
    }
  }

  /** The outcome of a run of request lines on one connection: the tables
      after the last line, and each line's effect in order. */
  datatype Run = Run(next: State, effects: seq<Effect>)

  /** The tables a run starts its `i`-th line on: the starting tables for
      the first line, and what the previous line left for the others. */
  function Before(s: State, effects: seq<Effect>, i: nat): State
    requires i <= |effects|
  {
    if i == 0 then s else effects[i - 1].next
  }

  /** The inner loop of `handle_client`: each complete line is decoded and
      dispatched in turn (`HandleLinesStepwise` says which effect is whose). */
  function HandleLines(s: State, conn: Conn, lines: seq<string>, decode: string -> Request,
                       hash: Hasher): (r: Run)
    ensures |r.effects| == |lines|
    ensures Inv(s) && conn in s.clients ==> Inv(r.next)
    ensures r.next.clients == s.clients
    ensures AccountsKept(s.users, r.next.users)
    ensures AgreeExcept(s.authenticated, r.next.authenticated, conn)
    ensures AgreeExcept(s.colors, r.next.colors, conn)
    decreases |lines|
  {
    if lines == [] then Run(s, [])
    else
      var e := Dispatch(s, conn, decode(lines[0]), hash);
      var rest := HandleLines(e.next, conn, lines[1..], decode, hash);
      Run(rest.next, [e] + rest.effects)
  }

  /** Effect `i` of a run is the dispatch of line `i` on the tables the
      lines before it left, and the run ends on the tables the last line
      left. */
  lemma HandleLinesStepwise(s: State, conn: Conn, lines: seq<string>,
                            decode: string -> Request, hash: Hasher)
    ensures var r := HandleLines(s, conn, lines, decode, hash);
            && (forall i :: 0 <= i < |lines| ==>
                  r.effects[i] == Dispatch(Before(s, r.effects, i), conn, decode(lines[i]), hash))
            && r.next == Before(s, r.effects, |lines|)
  {
    forall i | 0 <= i < |lines| {
      HandleLinesAt(s, conn, lines, decode, hash, i);
    }
    HandleLinesEnd(s, conn, lines, decode, hash);
  }

  lemma {:induction false} HandleLinesAt(s: State, conn: Conn, lines: seq<string>,
                                         decode: string -> Request, hash: Hasher, i: nat)
    requires i < |lines|
    ensures var r := HandleLines(s, conn, lines, decode, hash);
            r.effects[i] == Dispatch(Before(s, r.effects, i), conn, decode(lines[i]), hash)
    decreases i
  {
    if i > 0 {
      var e := Dispatch(s, conn, decode(lines[0]), hash);
      var rest := HandleLines(e.next, conn, lines[1..], decode, hash);
      var r := HandleLines(s, conn, lines, decode, hash);
      assert r == Run(rest.next, [e] + rest.effects);
      HandleLinesAt(e.next, conn, lines[1..], decode, hash, i - 1);
      assert r.effects[i] == rest.effects[i - 1];
      assert Before(s, r.effects, i) == Before(e.next, rest.effects, i - 1);
      assert lines[i] == lines[1..][i - 1];
    }
  }

  lemma {:induction false} HandleLinesEnd(s: State, conn: Conn, lines: seq<string>,
                                          decode: string -> Request, hash: Hasher)
    ensures var r := HandleLines(s, conn, lines, decode, hash);
            r.next == Before(s, r.effects, |lines|)
    decreases |lines|
  {
    if lines != [] {
      var e := Dispatch(s, conn, decode(lines[0]), hash);
      var rest := HandleLines(e.next, conn, lines[1..], decode, hash);
      var r := HandleLines(s, conn, lines, decode, hash);
      assert r == Run(rest.next, [e] + rest.effects);
      HandleLinesEnd(e.next, conn, lines[1..], decode, hash);
      assert Before(s, r.effects, |lines|) == Before(e.next, rest.effects, |lines| - 1);
    }
  }

  /** One `recv` on a connection: the chunk is appended to the buffer, every
      complete line is handled in order, each on the tables the lines before
      it left, and the unterminated remainder is kept. */
  function Receive(s: State, conn: Conn, buffer: string, chunk: string,
                   decode: string -> Request, hash: Hasher): (r: (Run, string))
    ensures r.1 == Framing.Split(buffer + chunk).rest
    ensures var lines := Framing.Split(buffer + chunk).lines;
            && |r.0.effects| == |lines|
            && (forall i :: 0 <= i < |lines| ==>
                  r.0.effects[i] == Dispatch(Before(s, r.0.effects, i), conn, decode(lines[i]), hash))
            && r.0.next == Before(s, r.0.effects, |lines|)
    ensures Inv(s) && conn in s.clients ==> Inv(r.0.next)
  {
    var f := Framing.Split(buffer + chunk);
    HandleLinesStepwise(s, conn, f.lines, decode, hash);
    (HandleLines(s, conn, f.lines, decode, hash), f.rest)
  }

  /** A sequence of `recv` chunks on one connection, starting from `buffer`. */
  function Feed(s: State, conn: Conn, buffer: string, chunks: seq<string>,
                decode: string -> Request, hash: Hasher): (r: (State, string))
    ensures Inv(s) && conn in s.clients ==> Inv(r.0)
    ensures r.0.clients == s.clients
    ensures AccountsKept(s.users, r.0.users)
    ensures AgreeExcept(s.authenticated, r.0.authenticated, conn)
    ensures AgreeExcept(s.colors, r.0.colors, conn)
    decreases |chunks|
  {
    if chunks == [] then (s, buffer)
    else
      var step := Receive(s, conn, buffer, chunks[0], decode, hash);
      Feed(step.0.next, conn, step.1, chunks[1..], decode, hash)
  }

  /** A whole connection's life: accepted, fed the chunks it sends until the
      peer closes, then cleaned up. Afterwards the connection is gone from
      the live set and from the name and color tables, every other
      connection's entries are as they were, and no account is lost. As
      the connection was new, the name and color tables end as they began. */
  function Serve(s: State, conn: Conn, chunks: seq<string>,
                 decode: string -> Request, hash: Hasher): (t: State)
    requires Fresh(s, conn)
    ensures Inv(s) ==> Inv(t)
    ensures t.clients == s.clients - {conn}
    ensures conn !in t.authenticated && conn !in t.colors
    ensures AgreeExcept(s.authenticated, t.authenticated, conn)
    ensures AgreeExcept(s.colors, t.colors, conn)
    ensures AccountsKept(s.users, t.users)
    ensures t.authenticated == s.authenticated && t.colors == s.colors
  {
    var fed := Feed(Connect(s, conn), conn, "", chunks, decode, hash);
    var t := Disconnect(fed.0, conn);
    AgreeWithoutKey(s.authenticated, t.authenticated, conn);
    AgreeWithoutKey(s.colors, t.colors, conn);
    t
  }

  /** Two maps that agree away from `k` and both lack `k` are equal. */
  lemma AgreeWithoutKey<K(!new), V>(a: map<K, V>, b: map<K, V>, k: K)
    requires AgreeExcept(a, b, k) && k !in a && k !in b
    ensures a == b
  {
  }
}

=== FILE: server_props.dfy ===
/** Properties of the chat server's dispatch that relate several steps, or
    a step to the server's tables as a whole. */
module ServerProperties {
  import opened Base
  import opened Text
  import opened Protocol
  import opened Server
  import Framing

  /** A successful registration is followed by a successful login with the
      same credentials, from any connection, which yields the registered
      color; a login with another password succeeds exactly when that
      password has the same hash. */
  lemma RegisterThenLogin(s: State, c1: Conn, c2: Conn, username: string, password: string,
                          other: string, color: Option<int>, hash: Hasher)
    requires Field(Some(username)) != "" && Field(Some(password)) != ""
    requires Field(Some(username)) !in s.users
    ensures var s1 := Dispatch(s, c1, RegisterReq(Some(username), Some(password), color), hash).next;
            && Dispatch(s, c1, RegisterReq(Some(username), Some(password), color), hash).replies
               == [Registered(Field(Some(username)), color.GetOr(DefaultColor))]
            && Dispatch(s1, c2, LoginReq(Some(username), Some(password)), hash).replies
               == [LoggedIn(Field(Some(username)), color.GetOr(DefaultColor))]
            && (Dispatch(s1, c2, LoginReq(Some(username), Some(other)), hash).replies[0].LoggedIn?
                <==> hash(Field(Some(other))) == hash(Field(Some(password))))
  {
  }

  /** Once an account exists, every later run of requests on any connection
      leaves it able to log in with the same password and color. */
  lemma AccountOutlivesSessions(s: State, conn: Conn, chunks: seq<string>, decode: string -> Request,
                                hash: Hasher, c: Conn, username: string, password: string)
    requires Fresh(s, conn)
    requires Field(Some(username)) in s.users
    requires s.users[Field(Some(username))].passwordHash == hash(Field(Some(password)))
    ensures var t := Serve(s, conn, chunks, decode, hash);
            Dispatch(t, c, LoginReq(Some(username), Some(password)), hash).replies
            == [LoggedIn(Field(Some(username)), s.users[Field(Some(username))].color.GetOr(DefaultColor))]
  {
  }

  /** A chat message goes to exactly the live connections other than the
      sender. When the tables are consistent and the sender is logged in,
      every copy carries the sender's name and color. */
  lemma BroadcastReachesEveryoneElse(s: State, sender: Conn, text: string)
    ensures (set d | d in Broadcast(s, sender, text) :: d.to) == s.clients - {sender}
    ensures Inv(s) && sender in s.authenticated ==>
              forall d :: d in Broadcast(s, sender, text) ==>
                d.response == Chat(s.authenticated[sender], s.colors[sender], text)
  {
    var out := Broadcast(s, sender, text);
    var msg := Chat(SenderName(s, sender), SenderColor(s, sender), text);
    forall c | c in s.clients - {sender}
      ensures c in (set d | d in out :: d.to)
    {
      assert Delivery(c, msg) in out;
    }
  }

  /** Channels play no part in who receives a chat message. */
  lemma BroadcastIgnoresChannels(s: State, sender: Conn, text: string,
                                 channels: map<string, set<Conn>>, order: seq<string>)
    ensures Broadcast(s.(channels := channels, channelOrder := order), sender, text)
         == Broadcast(s, sender, text)
  {
  }

  /** A `message` that is blank after stripping is delivered to no one. */
  lemma BlankMessageIsNotDelivered(s: State, conn: Conn, text: string, hash: Hasher)
    requires AllSpace(text)
    ensures Dispatch(s, conn, MessageReq(Some(text)), hash).broadcast == {}
    ensures Dispatch(s, conn, MessageReq(Some(text)), hash).next == s
  {
  }

  /** A `message` or `command` from a connection that has not registered or
      logged in is refused and changes nothing. */
  lemma UnauthenticatedIsRefused(s: State, conn: Conn, req: Request, hash: Hasher)
    requires req.MessageReq? || req.CommandReq?
    requires conn !in s.authenticated
    ensures Dispatch(s, conn, req, hash) == Effect(s, [Failure(NotAuthenticated)], {})
  {
  }

  /** The channel a `/join ` command names is never empty, has no
      surrounding whitespace and no upper-case ASCII letter. */
  lemma JoinTargetIsNormalised(message: Option<string>)
    requires StartsWith(CommandText(message), JoinCommand)
    ensures JoinTarget(CommandText(message)) != ""
    ensures Strip(JoinTarget(CommandText(message))) == JoinTarget(CommandText(message))
    ensures NoUpper(JoinTarget(CommandText(message)))
  {
    CommandTextIsNormalised(message);
    NormalisedJoinTarget(CommandText(message));
  }

  /** Command text is stripped and has no upper-case letter. */
  lemma CommandTextIsNormalised(message: Option<string>)
    ensures Strip(CommandText(message)) == CommandText(message)
    ensures NoUpper(CommandText(message))
  {
    var f := Field(message);
    assert CommandText(message) == Lower(f);
    LowerKeepsStripped(message.GetOr(""));
    LowerHasNoUpper(f);
  }

  /** The name cut from a stripped, lower-case `/join ` command. */
  lemma NormalisedJoinTarget(cmd: string)
    requires StartsWith(cmd, JoinCommand) && Strip(cmd) == cmd && NoUpper(cmd)
    ensures JoinTarget(cmd) != ""
    ensures Strip(JoinTarget(cmd)) == JoinTarget(cmd)
    ensures NoUpper(JoinTarget(cmd))
  {
    JoinTailNotBlank(cmd);
    var tail := cmd[|JoinCommand|..];
    StripIdempotent(tail);
    assert NoUpper(tail) by {
      forall i | 0 <= i < |tail|
        ensures !('A' <= tail[i] <= 'Z')
      {
        assert tail[i] == cmd[|JoinCommand| + i];
      }
    }
    StripKeepsNoUpper(tail);
  }

  /** In a stripped command that starts with `/join `, something other than
      whitespace follows the prefix. */
  lemma JoinTailNotBlank(cmd: string)
    requires StartsWith(cmd, JoinCommand) && Strip(cmd) == cmd
    ensures !AllSpace(cmd[|JoinCommand|..])
  {
    assert cmd[5] == ' ';
    assert !IsSpace(cmd[|cmd| - 1]);
    var tail := cmd[|JoinCommand|..];
    assert tail[|tail| - 1] == cmd[|cmd| - 1];
  }

  /** `/join X` puts the connection in channel X and in no other new
      channel; everyone already in any channel stays there. */
  lemma JoinAddsToOneChannel(s: State, conn: Conn, message: Option<string>, hash: Hasher)
    requires conn in s.authenticated
    requires StartsWith(CommandText(message), JoinCommand)
    ensures var t := Dispatch(s, conn, CommandReq(message), hash).next;
            var name := JoinTarget(CommandText(message));
            && conn in Members(t, name)
            && (forall n :: Members(s, n) <= Members(t, n))
            && (forall n :: n != name ==> Members(t, n) == Members(s, n))
  {
  }

  /** `/leave` takes the connection out of every channel, keeps every other
      member, and reports one notice per channel it was in. */
  lemma LeaveRemovesEverywhere(s: State, conn: Conn, message: Option<string>, hash: Hasher)
    requires conn in s.authenticated
    requires CommandText(message) == LeaveCommand
    ensures var e := Dispatch(s, conn, CommandReq(message), hash);
            && (forall n :: conn !in Members(e.next, n))
            && (forall n, c :: c != conn && c in Members(s, n) ==> c in Members(e.next, n))
            && |e.replies| == |ChannelsHolding(s.channelOrder, s.channels, conn)|
  {
  }

  /** Disconnecting does not touch channel membership: a connection that
      joined a channel is still listed in it after it is gone. */
  lemma DisconnectKeepsStaleMembers(s: State, conn: Conn, name: string)
    requires conn in Members(s, name)
    ensures conn in Members(Disconnect(s, conn), name)
    ensures conn !in Disconnect(s, conn).clients
  {
  }

  lemma {:induction false} HandleLinesAppend(s: State, conn: Conn, a: seq<string>, b: seq<string>,
                                             decode: string -> Request, hash: Hasher)
    ensures HandleLines(s, conn, a + b, decode, hash).next
         == HandleLines(HandleLines(s, conn, a, decode, hash).next, conn, b, decode, hash).next
    decreases |a|
  {
    if a != [] {
      assert (a + b)[1..] == a[1..] + b;
      var e := Dispatch(s, conn, decode(a[0]), hash);
      HandleLinesAppend(e.next, conn, a[1..], b, decode, hash);
    } else {
      assert a + b == b;
    }
  }

  lemma FeedNoChunks(s: State, conn: Conn, buffer: string, decode: string -> Request, hash: Hasher)
    requires '\n' !in buffer
    ensures var whole := Framing.Split(buffer + Framing.Concat([]));
            Feed(s, conn, buffer, [], decode, hash)
            == (HandleLines(s, conn, whole.lines, decode, hash).next, whole.rest)
  {
    assert buffer + Framing.Concat([]) == buffer;
  }

  lemma StreamRegroups(buffer: string, chunks: seq<string>)
    requires chunks != []
    ensures buffer + Framing.Concat(chunks) == (buffer + chunks[0]) + Framing.Concat(chunks[1..])
  {
  }

  lemma FeedUnfold(s: State, conn: Conn, buffer: string, chunks: seq<string>,
                    decode: string -> Request, hash: Hasher)
    requires chunks != []
    ensures var first := Framing.Split(buffer + chunks[0]);
            Feed(s, conn, buffer, chunks, decode, hash)
            == Feed(HandleLines(s, conn, first.lines, decode, hash).next, conn, first.rest, chunks[1..], decode, hash)
  {
  }

  /** How the byte stream is cut into `recv` chunks does not matter: feeding
      the chunks one by one leaves the same tables and the same unfinished
      line as handling every complete line of the whole stream at once. The
      carried buffer is a remainder, so it holds no newline. */
  lemma {:induction false} FeedIgnoresChunking(s: State, conn: Conn, buffer: string, chunks: seq<string>,
                                               decode: string -> Request, hash: Hasher)
    requires '\n' !in buffer
    ensures var whole := Framing.Split(buffer + Framing.Concat(chunks));
            Feed(s, conn, buffer, chunks, decode, hash)
            == (HandleLines(s, conn, whole.lines, decode, hash).next, whole.rest)
    decreases |chunks|
  {
    if chunks == [] {
      FeedNoChunks(s, conn, buffer, decode, hash);
    } else {
      var first := Framing.Split(buffer + chunks[0]);
      var s1 := HandleLines(s, conn, first.lines, decode, hash).next;
      var more := Framing.Concat(chunks[1..]);
      var later := Framing.Split(first.rest + more);
      FeedUnfold(s, conn, buffer, chunks, decode, hash);
      FeedIgnoresChunking(s1, conn, first.rest, chunks[1..], decode, hash);
      StreamRegroups(buffer, chunks);
      Framing.SplitAppend(buffer + chunks[0], more);
      HandleLinesAppend(s, conn, first.lines, later.lines, decode, hash);
    }
  }
}

=== FILE: text.dfy ===
/** The string operations the chat programs use: Python's `str.strip()`,
    `str.lower()`, `str.startswith()` and the character class `[a-zA-Z0-9]`. */
module Text {

  /** Python's `str.isspace()` for one character: the set of characters that
      `str.strip()` with no argument removes from both ends. In ASCII these
      are space, tab, line feed, vertical tab, form feed, carriage return
      and the four separators 0x1C to 0x1F; none of them is a letter or a
      digit. */
  function IsSpace(c: char): (b: bool)
    ensures c as int < 0x80 ==> (b <==> c as int in {0x20, 0x09, 0x0A, 0x0B, 0x0C, 0x0D, 0x1C, 0x1D, 0x1E, 0x1F})
    ensures b ==> !('a' <= c <= 'z' || 'A' <= c <= 'Z' || '0' <= c <= '9')
  {
    var n := c as int;
    || n == 0x20 || 0x09 <= n <= 0x0D || 0x1C <= n <= 0x1F
    || n == 0x85 || n == 0xA0 || n == 0x1680
    || 0x2000 <= n <= 0x200A || n == 0x2028 || n == 0x2029
    || n == 0x202F || n == 0x205F || n == 0x3000
  }

  predicate AllSpace(s: string) {
    forall i :: 0 <= i < |s| ==> IsSpace(s[i])
  }

  /** The number of whitespace characters at the front of `s`. */
  function LeadingSpace(s: string): (n: nat)
    ensures n <= |s|
    ensures forall i :: 0 <= i < n ==> IsSpace(s[i])
    ensures n < |s| ==> !IsSpace(s[n])
    decreases |s|
  {
    if s != [] && IsSpace(s[0]) then
      var k := LeadingSpace(s[1..]);
      assert forall i :: 1 <= i < k + 1 ==> s[i] == s[1..][i - 1];
      1 + k
    else 0
  }

  /** The number of whitespace characters at the end of `s`. */
  function TrailingSpace(s: string): (n: nat)
    ensures n <= |s|
    ensures forall i :: |s| - n <= i < |s| ==> IsSpace(s[i])
    ensures n < |s| ==> !IsSpace(s[|s| - n - 1])
    decreases |s|
  {
    if s != [] && IsSpace(s[|s| - 1]) then
      var t := s[..|s| - 1];
      var k := TrailingSpace(t);
      assert forall i :: |t| - k <= i < |t| ==> s[i] == t[i];
      1 + k
    else 0
  }

  /** Python's `s.strip()`: `s` without its leading and trailing whitespace.
      The result is the infix of `s` that starts after the leading
      whitespace; everything after it is whitespace; it is empty exactly
      when `s` is all whitespace, and otherwise it starts and ends with a
      non-space character. */
  function Strip(s: string): (r: string)
    ensures LeadingSpace(s) + |r| <= |s|
    ensures r == s[LeadingSpace(s)..LeadingSpace(s) + |r|]
    ensures AllSpace(s[LeadingSpace(s) + |r|..])
    ensures r == "" <==> AllSpace(s)
    ensures r != "" ==> !IsSpace(r[0]) && !IsSpace(r[|r| - 1])
  {
    var k := LeadingSpace(s);
    if k == |s| then ""
    else
      var m := TrailingSpace(s);
      assert !IsSpace(s[k]);
      assert m < |s| - k;
      var r := s[k..|s| - m];
      assert r[0] == s[k] && r[|r| - 1] == s[|s| - m - 1];
      assert AllSpace(s[k + |r|..]) by {
        var tail := s[k + |r|..];
        forall i | 0 <= i < |tail|
          ensures IsSpace(tail[i])
        {
          assert tail[i] == s[|s| - m + i];
        }
      }
      r
  }

  /** A string that is already stripped is left alone by `strip()`. */
  lemma StripKeepsStripped(t: string)
    requires t == "" || (!IsSpace(t[0]) && !IsSpace(t[|t| - 1]))
    ensures Strip(t) == t
  {
    if t != "" {
      assert LeadingSpace(t) == 0;
      assert TrailingSpace(t) == 0;
    }
  }

  /** `strip()` is idempotent. */
  lemma StripIdempotent(s: string)
    ensures Strip(Strip(s)) == Strip(s)
  {
    StripKeepsStripped(Strip(s));
  }

  /** Python's `c.lower()` on the ASCII range: an upper-case letter moves
      32 code points up to its lower-case partner; anything else stays. */
  function LowerChar(c: char): (d: char)
    ensures 'A' <= c <= 'Z' ==> d as int == c as int + 32 && 'a' <= d <= 'z'
    ensures !('A' <= c <= 'Z') ==> d == c
  {
    if 'A' <= c <= 'Z' then (c as int - 'A' as int + 'a' as int) as char else c
  }

  /** No character of `s` is an upper-case ASCII letter. */
  predicate NoUpper(s: string) {
    forall i :: 0 <= i < |s| ==> !('A' <= s[i] <= 'Z')
  }

  /** Python's `s.lower()` on ASCII: every upper-case letter becomes the
      letter 32 code points above it, and every other character is kept. */
  function Lower(s: string): (r: string)
    ensures |r| == |s|
    ensures forall i :: 0 <= i < |s| ==>
              if 'A' <= s[i] <= 'Z' then r[i] as int == s[i] as int + 32 else r[i] == s[i]
  {
    seq(|s|, i requires 0 <= i < |s| => LowerChar(s[i]))
  }

  /** Lower-casing a stripped string keeps it stripped: case mapping
      never turns a non-space end into whitespace. */
  lemma LowerKeepsStripped(s: string)
    ensures Strip(Lower(Strip(s))) == Lower(Strip(s))
  {
    var t := Strip(s);
    var r := Lower(t);
    if r != "" {
      assert IsSpace(r[0]) <==> IsSpace(t[0]);
      assert IsSpace(r[|r| - 1]) <==> IsSpace(t[|r| - 1]);
    }
    StripKeepsStripped(r);
  }

  /** Lower-casing leaves no upper-case ASCII letter behind. */
  lemma LowerHasNoUpper(s: string)
    ensures NoUpper(Lower(s))
  {
    var r := Lower(s);
    forall i | 0 <= i < |r|
      ensures !('A' <= r[i] <= 'Z')
    {
      assert 'A' <= s[i] <= 'Z' ==> r[i] as int == s[i] as int + 32;
    }
  }

  /** Stripping keeps a string free of upper-case letters. */
  lemma StripKeepsNoUpper(s: string)
    requires NoUpper(s)
    ensures NoUpper(Strip(s))
  {
    var k := LeadingSpace(s);
    var r := Strip(s);
    forall i | 0 <= i < |r|
      ensures !('A' <= r[i] <= 'Z')
    {
      assert r[i] == s[k + i];
    }
  }

  /** One character of the regular-expression class `[a-zA-Z0-9]`. */
  predicate IsAsciiAlnum(c: char) {
    ('a' <= c <= 'z') || ('A' <= c <= 'Z') || ('0' <= c <= '9')
  }

  /** Python's `s.startswith(prefix)`. */
  predicate StartsWith(s: string, prefix: string) {
    |prefix| <= |s| && s[..|prefix|] == prefix
  }
}

=== FILE: wire.dfy ===
/** The response objects server.py writes, as the client reads them, and
    what happens when the two programs talk to each other.

    As written, the server's replies to `register` and `login` carry no
    `action` key, while the client hands a reply to its waiting register or
    login prompt only when `action` is `register` or `login`. Those replies
    therefore never reach the prompt, and a client can never finish logging
    in. `EncodeAsWritten` is the server's encoding as written; `Encode` tags
    the replies to `register` and `login` with their action, which is what
    the client waits for, and is the encoding the end-to-end lemmas use. */
module Wire {
  import opened Base
  import opened Text
  import opened Protocol
  import Server
  import ServerProperties
  import Client

  const AvailableChannels := "Available channels: "

  function Quoted(name: string): string {
    "'" + name + "'"
  }

  function JoinQuoted(names: seq<string>): (r: string)
    ensures names == [] <==> r == ""
  {
    if names == [] then ""
    else if |names| == 1 then Quoted(names[0])
    else Quoted(names[0]) + ", " + JoinQuoted(names[1..])
  }

  /** `str(list(channels.keys()))` for names that need no escaping: the
      names in order, each in single quotes, separated by `, `, inside
      square brackets; an empty list is `[]`. */
  function ListRepr(names: seq<string>): (r: string)
    ensures |r| >= 2 && r[0] == '[' && r[|r| - 1] == ']'
    ensures r == "[]" <==> names == []
    ensures |names| == 1 ==> r == "['" + names[0] + "']"
    ensures |names| > 1 ==> r == "[" + Quoted(names[0]) + ", " + JoinQuoted(names[1..]) + "]"
  {
    "[" + JoinQuoted(names) + "]"
  }

  /** The dictionaries server.py passes to `send_json`, key for key. */
  function EncodeAsWritten(r: Response): (o: Reply)
    ensures o.status == Some("error") <==> r.Failure?
    ensures o.status == Some("success") <==> r.Registered? || r.LoggedIn?
    ensures o.action.Some? <==> r.System? || r.ChannelList? || r.Chat?
    ensures o.message.Some?
  {
    match r
    case Failure(m) => Reply(None, Some("error"), Some(m), None, None, None)
    case Registered(u, c) => Reply(None, Some("success"), Some(RegistrationComplete), None, Some(u), Some(c))
    case LoggedIn(u, c) => Reply(None, Some("success"), Some(LoginSuccessful), None, Some(u), Some(c))
    case System(m) => Reply(Some("system"), None, Some(m), None, None, None)
    case ChannelList(names) => Reply(Some("system"), None, Some(AvailableChannels + ListRepr(names)), None, None, None)
    case Chat(f, c, m) => Reply(Some("message"), None, Some(m), Some(f), None, Some(c))
  }

  /** The encoding with the replies to `register` and `login` tagged with
      their action; every other reply is as written. */
  function Encode(req: Request, r: Response): (o: Reply)
    ensures req.RegisterReq? ==> o.action == Some("register")
    ensures req.LoginReq? ==> o.action == Some("login")
    ensures !req.RegisterReq? && !req.LoginReq? ==> o == EncodeAsWritten(r)
    ensures o.(action := None) == EncodeAsWritten(r).(action := None)
  {
    var o := EncodeAsWritten(r);
    match req
    case RegisterReq(_, _, _) => o.(action := Some("register"))
    case LoginReq(_, _) => o.(action := Some("login"))
    case _ => o
  }

  /** How the client routes a run of server responses sent as written:
      nothing reaches the register or login slot, and every successful
      registration or login reply is dropped. */
  function RouteAsWritten(rs: seq<Response>): (routed: seq<Client.Routed>)
    ensures |routed| == |rs|
    ensures forall i :: 0 <= i < |rs| ==> routed[i] == Client.Route(EncodeAsWritten(rs[i]))
    ensures forall i :: 0 <= i < |rs| ==> !routed[i].ToLogin? && !routed[i].ToRegistration?
    ensures forall i :: 0 <= i < |rs| && (rs[i].Registered? || rs[i].LoggedIn?) ==> routed[i] == Client.Dropped
  {
    seq(|rs|, i requires 0 <= i < |rs| => Client.Route(EncodeAsWritten(rs[i])))
  }

  /** How the client routes the responses to one request, tagged: every
      response to a `login` goes to the login slot, every response to a
      `register` to the register slot, and the responses to anything else
      are routed as written. */
  function RouteTagged(req: Request, rs: seq<Response>): (routed: seq<Client.Routed>)
    ensures |routed| == |rs|
    ensures req.LoginReq? ==> forall i :: 0 <= i < |rs| ==> routed[i] == Client.ToLogin(Encode(req, rs[i]))
    ensures req.RegisterReq? ==>
              forall i :: 0 <= i < |rs| ==> routed[i] == Client.ToRegistration(Encode(req, rs[i]))
    ensures !req.RegisterReq? && !req.LoginReq? ==> routed == RouteAsWritten(rs)
  {
    seq(|rs|, i requires 0 <= i < |rs| => Client.Route(Encode(req, rs[i])))
  }

  /** As written, no server response is ever routed to the client's
      register or login slot; a successful register or login reply is
      dropped without being shown. */
  lemma AuthRepliesAreDroppedAsWritten(r: Response)
    ensures !Client.Route(EncodeAsWritten(r)).ToLogin?
    ensures !Client.Route(EncodeAsWritten(r)).ToRegistration?
    ensures r.Registered? || r.LoggedIn? ==> Client.Route(EncodeAsWritten(r)) == Client.Dropped
  {
  }

  /** As written, whatever the server sends during the three waits, every
      wait sees no reply, and `login()` gives up. */
  lemma LoginNeverCompletesAsWritten(w1: seq<Response>, w2: seq<Response>, w3: seq<Response>)
    ensures Client.Login([Client.AwaitLogin(RouteAsWritten(w1)),
                          Client.AwaitLogin(RouteAsWritten(w2)),
                          Client.AwaitLogin(RouteAsWritten(w3))]) == None
  {
    NothingReachesLoginSlot(w1);
    NothingReachesLoginSlot(w2);
    NothingReachesLoginSlot(w3);
  }

  lemma NothingReachesLoginSlot(w: seq<Response>)
    ensures Client.AwaitLogin(RouteAsWritten(w)) == Client.NoResponse
  {
    var routed := RouteAsWritten(w);
    forall i | 0 <= i < |routed|
      ensures !routed[i].ToLogin?
    {
      AuthRepliesAreDroppedAsWritten(w[i]);
    }
  }

  /** The concrete case on fresh tables: "alice" registers with password
      "pw" and color 6 on connection 1, then logs in with alice/pw on
      connection 2. The result is the effect of each of the two requests. */
  function AliceSession(hash: Hasher): (Server.Effect, Server.Effect) {
    var s1 := Server.Connect(Server.Connect(Server.Start(map[]), 1), 2);
    var e1 := Server.Dispatch(s1, 1, RegisterReq(Some("alice"), Some("pw"), Some(6)), hash);
    (e1, Server.Dispatch(e1.next, 2, LoginReq(Some("alice"), Some("pw")), hash))
  }

  /** The server side of the concrete case: the registration succeeds, and
      the server accepts the login on the other connection. */
  lemma ServerAcceptsAlice(hash: Hasher)
    ensures AliceSession(hash).0.replies == [Registered("alice", 6)]
    ensures AliceSession(hash).1.replies == [LoggedIn("alice", 6)]
  {
    var s1 := Server.Connect(Server.Connect(Server.Start(map[]), 1), 2);
    var e1 := Server.Dispatch(s1, 1, RegisterReq(Some("alice"), Some("pw"), Some(6)), hash);
    assert AliceSession(hash) == (e1, Server.Dispatch(e1.next, 2, LoginReq(Some("alice"), Some("pw")), hash));
    AliceFields();
    ServerProperties.RegisterThenLogin(s1, 1, 2, "alice", "pw", "pw", Some(6), hash);
  }

  /** The client side of the concrete case: the client reads, as written,
      the very replies the server gave to alice's accepted login; its first
      wait sees nothing, the next two time out as well, and `login()`
      returns `None`. */
  lemma RegisteredUserCannotLogInAsWritten(hash: Hasher)
    ensures AliceSession(hash).1.replies == [LoggedIn("alice", 6)]
    ensures Client.Login([Client.AwaitLogin(RouteAsWritten(AliceSession(hash).1.replies)),
                          Client.NoResponse, Client.NoResponse]) == None
  {
    ServerAcceptsAlice(hash);
    FirstWaitAsWrittenFails(AliceSession(hash).1.replies);
  }

  /** Whatever the server sends as written during the first wait, followed
      by two timeouts, `login()` returns `None`. */
  lemma FirstWaitAsWrittenFails(rs: seq<Response>)
    ensures Client.Login([Client.AwaitLogin(RouteAsWritten(rs)), Client.NoResponse, Client.NoResponse]) == None
  {
    NothingReachesLoginSlot(rs);
    ThreeTimeoutsFail();
  }

  lemma ThreeTimeoutsFail()
    ensures Client.Login([Client.NoResponse, Client.NoResponse, Client.NoResponse]) == None
  {
    var outs := [Client.NoResponse, Client.NoResponse, Client.NoResponse];
    assert forall i :: 0 <= i < Client.MaxLoginAttempts ==> !Client.Succeeded(outs[i]);
  }

  lemma AliceFields()
    ensures Server.Field(Some("alice")) == "alice" && Server.Field(Some("pw")) == "pw"
  {
    StripKeepsStripped("alice");
    StripKeepsStripped("pw");
  }

  /** With tagged replies, a login the server accepts completes on the
      client at the first attempt, with the stored name and color. */
  lemma LoginCompletesWithTaggedReplies(s: Server.State, conn: Conn, username: string,
                                        password: string, hash: Hasher)
    requires Server.Field(Some(username)) in s.users
    requires s.users[Server.Field(Some(username))].passwordHash == hash(Server.Field(Some(password)))
    ensures var req := LoginReq(Some(username), Some(password));
            var e := Server.Dispatch(s, conn, req, hash);
            var account := s.users[Server.Field(Some(username))];
            Client.Login([Client.AwaitLogin(RouteTagged(req, e.replies)),
                          Client.NoResponse, Client.NoResponse])
            == Some(Client.Identity(Some(Server.Field(Some(username))),
                                    account.color.GetOr(Server.DefaultColor)))
  {
    var req := LoginReq(Some(username), Some(password));
    var e := Server.Login(s, conn, Some(username), Some(password), hash);
    assert Server.Dispatch(s, conn, req, hash) == e;
    var u := Server.Field(Some(username));
    var c := s.users[u].color.GetOr(Server.DefaultColor);
    assert e.replies == [LoggedIn(u, c)];
    var o := TaggedLogin(req, u, c);
    assert RouteTagged(req, e.replies) == [Client.ToLogin(o)];
    FirstAnswerWins(o);
  }

  /** The tagged reply to a successful login, with what the client reads
      from it. */
  function TaggedLogin(req: Request, u: string, c: int): (o: Reply)
    requires req.LoginReq?
    ensures o == Encode(req, LoggedIn(u, c))
    ensures o.action == Some("login") && o.status == Some("success")
    ensures Client.Route(o) == Client.ToLogin(o)
    ensures Client.IdentityOf(o) == Client.Identity(Some(u), c)
  {
    Reply(Some("login"), Some("success"), Some(LoginSuccessful), None, Some(u), Some(c))
  }

  /** A success reply read at the first wait ends `login()` at once. */
  lemma FirstAnswerWins(o: Reply)
    requires o.action == Some("login") && o.status == Some("success")
    ensures Client.Login([Client.AwaitLogin([Client.ToLogin(o)]), Client.NoResponse, Client.NoResponse])
         == Some(Client.IdentityOf(o))
  {
    var outs := [Client.AwaitLogin([Client.ToLogin(o)]), Client.NoResponse, Client.NoResponse];
    assert outs[0] == Client.Answered(o);
    assert Client.Succeeded(outs[0]);
  }

  /** With tagged replies, a successful registration reaches the client's
      register slot as a success carrying the name and color. */
  lemma RegistrationReachesClientWhenTagged(s: Server.State, conn: Conn, username: string,
                                            password: string, color: Option<int>, hash: Hasher)
    requires Server.Field(Some(username)) != "" && Server.Field(Some(password)) != ""
    requires Server.Field(Some(username)) !in s.users
    ensures var req := RegisterReq(Some(username), Some(password), color);
            var e := Server.Dispatch(s, conn, req, hash);
            var o := Encode(req, e.replies[0]);
            && Client.Route(o) == Client.ToRegistration(o)
            && o.status == Some("success")
            && o.username == Some(Server.Field(Some(username)))
            && o.color == Some(color.GetOr(Server.DefaultColor))
  {
  }

  /** A name the client's prompt accepts reaches the server unchanged by
      its `strip()` and is not empty, so the server never answers
      "Missing fields" for it. */
  lemma AcceptedUsernameSurvivesServer(raw: string)
    requires Client.CheckUsername(raw).Accepted?
    ensures var name := Client.CheckUsername(raw).name;
            Server.Field(Some(name)) == name && name != ""
  {
    StripIdempotent(raw);
  }

  /** A typed chat line reaches other clients exactly as the sender's
      client sent it: the server's `strip()` leaves it as it is, and a
      logged-in sender's message is broadcast with that text. */
  lemma TypedMessageIsBroadcastVerbatim(s: Server.State, conn: Conn, line: string, hash: Hasher)
    requires Client.Classify(line).Send? && Client.Classify(line).kind == Client.MessageKind
    requires conn in s.authenticated
    ensures var text := Client.Classify(line).text;
            Server.Dispatch(s, conn, Client.Outgoing(Client.MessageKind, text), hash).broadcast
            == Server.Broadcast(s, conn, text)
  {
    StripIdempotent(line);
  }
}
